=== FILE: README.md ===
# GitHub user search app: a Dafny model of its decision logic

This project models the non-UI logic of an Android client for the GitHub REST API. The app searches for users, shows a profile with the user's most-starred repositories, pages through a user's repositories with a client-side filter, and shows one repository. The model covers:

- **Exception classification** (`ExceptionExtensions`): the message a screen shows for a failed call. The cases are tried in order: a socket timeout, then any other I/O failure, then the HTTP status codes 404 and 403, then any other status, then everything else.
- **Repository layer** (`RepositoryImpl`):
  - each API call is wrapped so that it returns `Success` with the fetched payload or `Error` with the thrown exception, and never throws;
  - the popular repositories are page 1 of the user's repositories (30 per page, sorted by "updated", "desc"), without forks, stably sorted by stars descending, with the first 5 kept.
- **Paging source** (`Paging`): one page load and the refresh key. A blank query keeps the page as it came. Otherwise an item is kept when its name, description or language contains the query, ignoring case. `prevKey` and `nextKey` come from the page number and the *unfiltered* page.
- **Screen state holders** (`Search`, `Profile`, `RepositoryDetail`): classes whose fields are the `StateFlow` values. Each launched coroutine block is modelled as a sequential method. A ghost log per view model records, in order, every value assigned to Search's `userState`, `similarUsersState` and `isRefreshing`, or to Profile's `userState` and `popularReposState`; Search's `searchState` is not logged. Contracts can therefore state that `Loading` comes before the result, that `isRefreshing` goes true before the work and false after it, and which holder is assigned before which. The log is the sequence of assignments. A `StateFlow` collector sees only a subsequence of one holder's assignments: it ends with the latest value, never holds two equal values in a row, and may miss intermediate values such as `Loading`.
- **Theme flag** (`Theme`): the dark-mode flag, its persisted copy under `"dark_mode"`, the value the store's emission gives the flag, and whether the collector started in `init` is still running.
- **Routes** (`Navigation`): route templates as literal text and `{name}` placeholders, `createRoute` as string concatenation, the parsers that read arguments back, and injectivity.
- **Display helpers** (`Util`): `formatNumber`'s branch by magnitude, the language colour table, the `formatDate` fallback and the `formatRelativeTime` buckets.

The API service is an input: the `GitHubApi` datatype holds one total function per endpoint. Each returns `Returned(value)` or `Threw(exception)`. The use cases forward to the repository unchanged, so the view models call the repository functions directly.

Some behaviour of the code is worth stating up front:

- `load` gives `prevKey = page - 1` for every page number other than 1, including 0 and negative keys, so only page 1 has no previous key.
- A refresh does not publish `Loading` for the user. Only `isRefreshing` marks it.
- A refresh with non-blank search text and no user shown looks up the trimmed text as a user, as a search does, but without the user `Loading` and between `isRefreshing` true and false. Only similar users are refreshed when the search text is not blank and the shown user's login is blank (`Search.SimilarUsersOnlyRefresh`).
- `formatDate`'s fallback `substring(0, 7)` throws on an unparseable input shorter than 7 UTF-16 code units. `Util.FormatDate`, which counts Unicode scalar values instead, returns that exception. This is the `formatDate` of `ui/utility/util.kt`, which nothing calls: the profile and repository screens use the `formatDate` of `ui/components/RepositoryItem.kt`, whose fallback returns the input unchanged, so users never see this exception.

## Model

| member | source | states |
|---|---|---|
| ExceptionExtensions.UserFriendlyMessage | app/src/main/java/com/rahul/githubusersearchapp/extensions/ExceptionExtensions.kt:7-19 | The message is one of the six fixed texts. Each text is produced exactly when its case applies: a timeout gives the timeout text although it is an I/O exception, other I/O gives the network text, 404 gives not-found, 403 gives rate-limit, any other HTTP code gives server error, anything else gives unexpected. |
| ExceptionExtensions.SameMessageSameCase | app/src/main/java/com/rahul/githubusersearchapp/extensions/ExceptionExtensions.kt:8-19 | Two exceptions get the same message exactly when they fall into the same case of the classification. |
| RepositoryImpl.Capture | app/src/main/java/com/rahul/githubusersearchapp/data/repository/GitHubRepositoryImpl.kt:22-29 | The wrapper is never `Loading`. It is `Success` exactly when the call returned, carrying the returned value, and otherwise `Error` carrying the thrown exception. |
| RepositoryImpl.CaptureRoundTrip | app/src/main/java/com/rahul/githubusersearchapp/data/repository/GitHubRepositoryImpl.kt:22-29 | The call's outcome can be read back from the wrapper: capturing loses nothing. |
| RepositoryImpl.GetUser | app/src/main/java/com/rahul/githubusersearchapp/data/repository/GitHubRepositoryImpl.kt:22-29 | `getUser` never yields `Loading` and reads back as exactly what the API call did. |
| RepositoryImpl.SearchUsers | app/src/main/java/com/rahul/githubusersearchapp/data/repository/GitHubRepositoryImpl.kt:31-38 | It asks for 10 per page. It succeeds exactly when that call returns, with the response's `items` unchanged. Otherwise it is an error with the thrown exception. |
| RepositoryImpl.GetRepository | app/src/main/java/com/rahul/githubusersearchapp/data/repository/GitHubRepositoryImpl.kt:72-79 | `getRepository` never yields `Loading` and reads back as exactly what the API call did. |
| RepositoryImpl.InsertByStars | app/src/main/java/com/rahul/githubusersearchapp/data/repository/GitHubRepositoryImpl.kt:64 | Inserting adds exactly the new element (multiset) and keeps a star-sorted list sorted. |
| RepositoryImpl.SortByStarsDescending | app/src/main/java/com/rahul/githubusersearchapp/data/repository/GitHubRepositoryImpl.kt:64 | The sorted list is a permutation of the input and is non-increasing in stars. |
| RepositoryImpl.SortByStarsStable | app/src/main/java/com/rahul/githubusersearchapp/data/repository/GitHubRepositoryImpl.kt:64 | The sort is stable: for every star count, the repositories with that count appear in the same relative order as in the input. |
| RepositoryImpl.InsertByStarsStable | app/src/main/java/com/rahul/githubusersearchapp/data/repository/GitHubRepositoryImpl.kt:64 | Inserting keeps the order of the repositories with any given star count, the new one first among its equals. |
| RepositoryImpl.TakeOfSorted | app/src/main/java/com/rahul/githubusersearchapp/data/repository/GitHubRepositoryImpl.kt:64-65 | A prefix of a star-sorted list is a sorted sub-multiset of it, and every copy left after the prefix has no more stars than any element of the prefix. |
| RepositoryImpl.PopularRepositories | app/src/main/java/com/rahul/githubusersearchapp/data/repository/GitHubRepositoryImpl.kt:62-65 | The selection has no forks and has min(5, non-forks) entries, drawn from the non-forks as a sub-multiset. It is non-increasing in stars. No copy of a non-fork that the selection leaves out, duplicates counted, has more stars than an included entry. Within each star count the selection is a prefix of the non-forks in upstream order. |
| RepositoryImpl.PopularRepositoriesSelect | app/src/main/java/com/rahul/githubusersearchapp/data/repository/GitHubRepositoryImpl.kt:62-65 | The filter, sort and take pipeline meets every clause of that selection property, including the count-aware top-5 clause. |
| RepositoryImpl.GetPopularRepositories | app/src/main/java/com/rahul/githubusersearchapp/data/repository/GitHubRepositoryImpl.kt:52-70 | It fetches page 1, 30 per page, sorted by "updated" "desc". It succeeds exactly when that fetch returns, and the data is then a popular selection of the fetched page, in the count-aware sense above. A failure carries the thrown exception. |
| Paging.PageNumber | app/src/main/java/com/rahul/githubusersearchapp/data/paging/RepositoryPagingSource.kt:16 | A missing key means page 1; a present key is used as given. |
| Paging.MatchesQuery | app/src/main/java/com/rahul/githubusersearchapp/data/paging/RepositoryPagingSource.kt:27-31 | True exactly when the lowercased query occurs in the lowercased name, or in the description or language when that field is present. An absent field never matches, and the empty query matches every repository. |
| Paging.FilterRepositories | app/src/main/java/com/rahul/githubusersearchapp/data/paging/RepositoryPagingSource.kt:24-32 | A blank query gives the upstream list itself. Otherwise an item is kept exactly when `MatchesQuery` holds, and a kept value keeps every one of its upstream copies while a dropped value keeps none. The result is always an order-preserving subsequence, no longer than the upstream list. |
| Paging.Load | app/src/main/java/com/rahul/githubusersearchapp/data/paging/RepositoryPagingSource.kt:14-42 | The load fails exactly when the fetch throws, carrying that exception. Otherwise the data is the filtered page. `prevKey` is absent exactly on page 1, else page - 1. `nextKey` is absent exactly when the unfiltered page is empty, else page + 1. |
| Paging.GetRefreshKey | app/src/main/java/com/rahul/githubusersearchapp/data/paging/RepositoryPagingSource.kt:44-49 | Without an anchor or closest page there is no key. Otherwise the key is the closest page's prevKey + 1, failing that nextKey - 1, and none when both are absent. |
| Paging.RefreshKeyOfLoadedPage | app/src/main/java/com/rahul/githubusersearchapp/data/paging/RepositoryPagingSource.kt:36-48 | Anchored in a page that `load` produced, a refresh restarts from that page's own number. The one exception is an empty first page, which has no key to derive. |
| Text.Trim | app/src/main/java/com/rahul/githubusersearchapp/presentation/viewmodel/SearchViewModel.kt:44 | The result is the input with its leading and trailing whitespace removed. It neither starts nor ends with whitespace, and it is empty exactly when the input is blank. |
| Text.IsBlank | app/src/main/java/com/rahul/githubusersearchapp/data/paging/RepositoryPagingSource.kt:24 | The empty string is blank, and a string is blank exactly when every character is whitespace, which is exactly when skipping leading whitespace reaches the end. |
| Text.Lower | app/src/main/java/com/rahul/githubusersearchapp/ui/utility/util.kt:16 | The result has the input's length, and each character is the lowercase of the input's character at that position. |
| Text.ContainsIgnoreCase | app/src/main/java/com/rahul/githubusersearchapp/data/paging/RepositoryPagingSource.kt:28-30 | True exactly when the lowercased pattern occurs at some position of the lowercased text. |
| Text.IntToStringRoundTrip | app/src/main/java/com/rahul/githubusersearchapp/ui/utility/util.kt:11 | The decimal rendering of an integer, negatives included, reads back as that integer. |
| Text.IntToString | app/src/main/java/com/rahul/githubusersearchapp/ui/utility/util.kt:11 | The rendering is non-empty and ends in a digit. It starts with `-` exactly for negative numbers. |
| Seqs.Filter | app/src/main/java/com/rahul/githubusersearchapp/data/repository/GitHubRepositoryImpl.kt:63 | The result holds exactly the elements of the input that satisfy the predicate. |
| Seqs.FilterCount | app/src/main/java/com/rahul/githubusersearchapp/data/repository/GitHubRepositoryImpl.kt:63 | Counting duplicates: a value that satisfies the predicate keeps all its copies, and one that does not keeps none. |
| Seqs.FilterPrefixAt | app/src/main/java/com/rahul/githubusersearchapp/presentation/viewmodel/SearchViewModel.kt:69-71 | Each prefix of a filtered list is the filter of some prefix of the input. |
| Seqs.Take | app/src/main/java/com/rahul/githubusersearchapp/data/repository/GitHubRepositoryImpl.kt:65 | The result is the first min(n, length) elements of the input. |
| Seqs.FilterIsSubsequence | app/src/main/java/com/rahul/githubusersearchapp/data/paging/RepositoryPagingSource.kt:27-31 | Filtering keeps the upstream order: the result is a subsequence of the input. |
| Seqs.FilterThenTake | app/src/main/java/com/rahul/githubusersearchapp/presentation/viewmodel/SearchViewModel.kt:69-71 | Filtering then taking a prefix gives a subsequence of the input, no longer than it. |
| States.Published | app/src/main/java/com/rahul/githubusersearchapp/presentation/viewmodel/ProfileViewModel.kt:38-49 | A finished call is published as `Success` with the data exactly when it succeeded, otherwise as `Error` with the friendly message of its exception. |
| Search.SimilarUsers | app/src/main/java/com/rahul/githubusersearchapp/presentation/viewmodel/SearchViewModel.kt:69-71 | Every similar user comes from the search results, and no login equals the query once both are lowercased. There are at most 5, in search order. If a non-matching user is left out, the list is full. The list is the filter of some prefix of the results, and that prefix is all the results when fewer than 5 were kept, so the first 5 non-matching users are the ones kept. |
| Search.SimilarUsersStateOf | app/src/main/java/com/rahul/githubusersearchapp/presentation/viewmodel/SearchViewModel.kt:66-82 | A success publishes the similar users and an error its friendly message. `Loading` maps to `Loading`. |
| Search.RefreshTarget | app/src/main/java/com/rahul/githubusersearchapp/presentation/viewmodel/SearchViewModel.kt:86-89 | The refresh target is the shown user's login when a user is shown, and the trimmed search text otherwise. |
| Search.SimilarUsersOnlyRefresh | app/src/main/java/com/rahul/githubusersearchapp/presentation/viewmodel/SearchViewModel.kt:86-122 | The similar-users-only refresh is reached exactly when the trimmed search text is not blank and a shown user's login is blank. |
| Search.SearchViewModel.constructor | app/src/main/java/com/rahul/githubusersearchapp/presentation/viewmodel/SearchViewModel.kt:27-37 | The view model starts with empty search text, `Idle` user and similar-users states, and no refresh in progress. |
| Search.SearchViewModel.OnSearchTextChange | app/src/main/java/com/rahul/githubusersearchapp/presentation/viewmodel/SearchViewModel.kt:39-41 | Only `searchText` changes, and it becomes the given text. |
| Search.SearchViewModel.SearchSimilarUsers | app/src/main/java/com/rahul/githubusersearchapp/presentation/viewmodel/SearchViewModel.kt:65-83 | Appends exactly one assignment to the log: the similar-users value the search result maps to, which is then the current state. |
| Search.SearchViewModel.LookUpUser | app/src/main/java/com/rahul/githubusersearchapp/presentation/viewmodel/SearchViewModel.kt:49-61 | Appends the lookup's user or error to the log. Only when the user was found does it then append the similar users searched with the same query. The final states match the log, and a failed lookup leaves the similar users as they were. |
| Search.SearchViewModel.SearchUser | app/src/main/java/com/rahul/githubusersearchapp/presentation/viewmodel/SearchViewModel.kt:43-63 | A blank trimmed text changes nothing. Otherwise the log gains, in this order: the user `Loading`, then the lookup's user or error, then, for a found user only, the similar users for the same text. Failure leaves the similar users untouched. |
| Search.SearchViewModel.RefreshUser | app/src/main/java/com/rahul/githubusersearchapp/presentation/viewmodel/SearchViewModel.kt:92-110 | The log gains `isRefreshing` true, then the lookup's user or error, then, on success, the similar users, and last `isRefreshing` false. |
| Search.SearchViewModel.RefreshSimilarUsers | app/src/main/java/com/rahul/githubusersearchapp/presentation/viewmodel/SearchViewModel.kt:115-120 | The log gains `isRefreshing` true, the similar users for the query, and `isRefreshing` false, in that order. The user state is untouched. |
| Search.SearchViewModel.RefreshData | app/src/main/java/com/rahul/githubusersearchapp/presentation/viewmodel/SearchViewModel.kt:85-123 | The refresh targets the shown user's login, otherwise the trimmed search text. A non-blank target is reloaded, with the ordered log of `RefreshUser`. Otherwise non-blank search text refreshes only the similar users, with the ordered log of `RefreshSimilarUsers`. Otherwise nothing changes. |
| Search.SearchViewModel.ResetUserState | app/src/main/java/com/rahul/githubusersearchapp/presentation/viewmodel/SearchViewModel.kt:125-128 | The log gains `Idle` for the user, then `Idle` for the similar users, and both states are `Idle`. The search text is untouched. |
| Profile.ProfileViewModel.constructor | app/src/main/java/com/rahul/githubusersearchapp/presentation/viewmodel/ProfileViewModel.kt:26-33 | All three states start `Idle`. |
| Profile.ProfileViewModel.LoadPopularRepositories | app/src/main/java/com/rahul/githubusersearchapp/presentation/viewmodel/ProfileViewModel.kt:53-66 | The log gains `Loading`, then the popular list or the error's message. The final state is never `Idle` or `Loading`, a success is a popular selection of the fetched page, and the user state is untouched. |
| Profile.ProfileViewModel.LoadUserProfile | app/src/main/java/com/rahul/githubusersearchapp/presentation/viewmodel/ProfileViewModel.kt:35-51 | The log gains the user `Loading`, then the user or the error's message. Only for a found user does it then gain the popular `Loading` and the popular result for the same username, after the user's success. `repositoriesState` stays `Idle`. |
| RepositoryDetail.RepositoryDetailViewModel.constructor | app/src/main/java/com/rahul/githubusersearchapp/presentation/viewmodel/RepositoryDetailViewModel.kt:21 | The state starts `Idle`. |
| RepositoryDetail.RepositoryDetailViewModel.LoadRepository | app/src/main/java/com/rahul/githubusersearchapp/presentation/viewmodel/RepositoryDetailViewModel.kt:24-39 | Publishes `Loading`, then the result. The final state is `Success` with exactly the fetched repository when the call returned, otherwise `Error` with the exception's friendly message. |
| Theme.StoredDarkMode | app/src/main/java/com/rahul/githubusersearchapp/ui/theme/ThemeManager.kt:38-47 | A read gives the stored flag, or false when the key is absent. An I/O failure gives false, and any other failure escapes with its exception. Only a stored true gives true. |
| Theme.ThemeManager.constructor | app/src/main/java/com/rahul/githubusersearchapp/ui/theme/ThemeManager.kt:31-52 | The flag starts false whatever the store holds, and the collector is running. |
| Theme.ThemeManager.Reload | app/src/main/java/com/rahul/githubusersearchapp/ui/theme/ThemeManager.kt:36-51 | While the collector runs, an emission sets the flag to the loaded value, which is false for a missing key. An I/O failure sets the flag false and completes the flow. A non-I/O failure leaves the flag as it was and ends the collection with that exception. Once the collection has ended, nothing changes. |
| Theme.ThemeManager.ToggleDarkMode | app/src/main/java/com/rahul/githubusersearchapp/ui/theme/ThemeManager.kt:54-61 | The flag becomes its negation. The store holds the new flag under "dark_mode" and is otherwise unchanged. |
| Theme.ThemeManager.SetDarkMode | app/src/main/java/com/rahul/githubusersearchapp/ui/theme/ThemeManager.kt:63-69 | Both the flag and the stored value become the argument. |
| Theme.ThemeManager.ToggleTwiceRestores | app/src/main/java/com/rahul/githubusersearchapp/ui/theme/ThemeManager.kt:54-61 | Toggling twice restores the original flag. |
| Theme.ThemeManager.SetDarkModeIdempotent | app/src/main/java/com/rahul/githubusersearchapp/ui/theme/ThemeManager.kt:63-69 | Setting the same value twice ends in the state that setting it once gives. |
| Theme.ThemeManager.ToggleThenReload | app/src/main/java/com/rahul/githubusersearchapp/ui/theme/ThemeManager.kt:36-61 | The store's emission after a toggle does not undo the toggle. |
| Navigation.SearchRouteIsRegistered | app/src/main/java/com/rahul/githubusersearchapp/presentation/navigation/Navigation.kt:4 | The search screen's route is the constant "search". |
| Navigation.ProfileRouteIsRegistered | app/src/main/java/com/rahul/githubusersearchapp/presentation/navigation/Navigation.kt:5 | The profile template reads "profile/{username}". |
| Navigation.RepositoriesRouteIsRegistered | app/src/main/java/com/rahul/githubusersearchapp/presentation/navigation/Navigation.kt:8 | The repositories template reads "repositories/{username}". |
| Navigation.RepositoryDetailRouteIsRegistered | app/src/main/java/com/rahul/githubusersearchapp/presentation/navigation/Navigation.kt:11 | The detail template reads "repository/{owner}/{repo}". |
| Navigation.CreateProfileRoute | app/src/main/java/com/rahul/githubusersearchapp/presentation/navigation/Navigation.kt:6 | The route is "profile/" followed by the username verbatim. |
| Navigation.CreateRepositoriesRoute | app/src/main/java/com/rahul/githubusersearchapp/presentation/navigation/Navigation.kt:9 | The route is "repositories/" followed by the username verbatim. |
| Navigation.CreateRepositoryDetailRoute | app/src/main/java/com/rahul/githubusersearchapp/presentation/navigation/Navigation.kt:12 | The route is "repository/", the owner verbatim, one `/`, then the repository name verbatim. |
| Navigation.ProfileRouteFillsTemplate | app/src/main/java/com/rahul/githubusersearchapp/presentation/navigation/Navigation.kt:5-6 | The profile route is its template with `{username}` replaced by the argument verbatim. |
| Navigation.RepositoriesRouteFillsTemplate | app/src/main/java/com/rahul/githubusersearchapp/presentation/navigation/Navigation.kt:8-9 | The repositories route is its template with `{username}` replaced by the argument verbatim. |
| Navigation.RepositoryDetailRouteFillsTemplate | app/src/main/java/com/rahul/githubusersearchapp/presentation/navigation/Navigation.kt:11-12 | The detail route is its template with `{owner}` and `{repo}` replaced by the arguments verbatim. |
| Navigation.ParseProfileRoute | app/src/main/java/com/rahul/githubusersearchapp/presentation/navigation/Navigation.kt:5-6 | Whatever it reads from a route rebuilds that route. |
| Navigation.ParseRepositoryDetailRoute | app/src/main/java/com/rahul/githubusersearchapp/presentation/navigation/Navigation.kt:11-12 | Whatever owner and name it reads from a route rebuild that route, and the owner holds no `/`. |
| Navigation.ProfileRouteRoundTrip | app/src/main/java/com/rahul/githubusersearchapp/presentation/navigation/Navigation.kt:6 | The username is read back from its profile route. |
| Navigation.ProfileRouteInjective | app/src/main/java/com/rahul/githubusersearchapp/presentation/navigation/Navigation.kt:6 | Different usernames give different profile routes. |
| Navigation.RepositoriesRouteInjective | app/src/main/java/com/rahul/githubusersearchapp/presentation/navigation/Navigation.kt:9 | Different usernames give different repositories routes. |
| Navigation.RepositoryDetailRouteRoundTrip | app/src/main/java/com/rahul/githubusersearchapp/presentation/navigation/Navigation.kt:12 | An owner without `/` and any repository name are read back from their route. |
| Navigation.RepositoryDetailRouteInjective | app/src/main/java/com/rahul/githubusersearchapp/presentation/navigation/Navigation.kt:12 | For owners without `/`, different arguments give different routes. |
| Navigation.RepositoryDetailRouteAmbiguous | app/src/main/java/com/rahul/githubusersearchapp/presentation/navigation/Navigation.kt:12 | Without that condition two different owners can give the same route, because the arguments are not escaped. |
| Util.FormatNumber | app/src/main/java/com/rahul/githubusersearchapp/ui/utility/util.kt:7-13 | Below 1000, negatives included, the result is the plain decimal rendering and reads back as the number. It ends in "M" exactly from 1000000 on, and in "K" exactly from 1000 up to 999999. |
| Util.LanguageColor | app/src/main/java/com/rahul/githubusersearchapp/ui/utility/util.kt:15-29 | The colour is the table entry of the lowercased name. Every name not in the table gets 0xFF586069, and only such names do. |
| Util.LanguageColorIgnoresCase | app/src/main/java/com/rahul/githubusersearchapp/ui/utility/util.kt:16 | The colour depends only on the lowercased name. |
| Util.FormatDate | app/src/main/java/com/rahul/githubusersearchapp/ui/utility/util.kt:32-41 | A parsed date gives its formatted text. Otherwise the result is the first 7 characters, counted as Unicode scalar values, or, for a shorter input, the fallback throws `StringIndexOutOfBoundsException`. |
| Util.FormatRelativeTime | app/src/main/java/com/rahul/githubusersearchapp/ui/utility/util.kt:44-60 | "Recently" exactly when the timestamp does not parse. |
| Util.RelativeTimeBuckets | app/src/main/java/com/rahul/githubusersearchapp/ui/utility/util.kt:50-55 | The buckets on elapsed seconds: from 31 days on, whole months of 30 days; from one day, days; from one hour, hours; from one minute, minutes. Anything less, a negative duration included, gives "Just now". |
| Util.JavaDiv | app/src/main/java/com/rahul/githubusersearchapp/ui/utility/util.kt:51-54 | Division truncates toward zero: the quotient has the dividend's sign, its magnitude is the floor of the magnitudes' quotient, and it is positive exactly when the dividend is at least the divisor. |

## Left out

- The Compose UI (screens, components, `Theme.kt`), `MainActivity` and the navigation graph: rendering and wiring only.
- Retrofit and JSON decoding: each endpoint is an input function from its arguments to a value or an exception.
- `getUserRepositories` in the repository layer and the Paging library's `Pager` accumulation of pages: a foreign library. Only the per-page `load` and `getRefreshKey` are modelled.
- `RepositoriesViewModel`: its substance is `debounce`, `combine` and `flatMapLatest`, which are timing and latest-wins concurrency.
- Coroutines: each launched block runs to its end as one call. `delay(500)`, cancellation and interleaving of concurrent launches are not modelled. Neither is the `CancellationException` that the `catch (e: Exception)` blocks also capture.
- The use cases and the DI modules forward unchanged; `MainViewModel` only forwards to `ThemeManager`.
- Text.Lower: lowercases ASCII letters only. Kotlin's `lowercase()` and `ignoreCase` comparisons also map non-ASCII letters.
- Util.FormatNumber: the digits of `"%.1f"` on a floating-point quotient are an input function, because floating-point formatting is not modelled.
- Util.FormatRelativeTime: timestamp parsing and `Instant.now()` are replaced by the elapsed whole seconds, or `None` when parsing fails.
- Util.FormatDate: `Instant.parse` and the "MMM yyyy" formatter are replaced by their result, because `java.time` is not modelled.
- Paging.Load: the page keys are unbounded integers, so the 32-bit wrap-around of `page + 1` at `Int.MAX_VALUE` and of `page - 1` at `Int.MIN_VALUE` is not modelled.
- Paging.GetRefreshKey: for the same reason, the wrap-around of `prevKey + 1` and `nextKey - 1` at the ends of the 32-bit range is not modelled.
- The `api` of each view model is a constant of pure functions, so a refresh or a repeated lookup gets the same answer as the first call. A server whose answers change between calls is not modelled.
- Theme.ThemeManager.ToggleDarkMode: a failing `dataStore.edit` is not modelled. The flag is already set when the edit throws, and the store would then keep its old value.
- Theme.ThemeManager.SetDarkMode: a failing `context.dataStore.edit` is not modelled either. The flag is already `darkMode` when the edit throws, the store would keep its old value, and the exception would escape to the caller.
- Util.FormatDate: the length test and the 7-element cut count Unicode scalar values, while Kotlin's `length` and `substring(0, 7)` count UTF-16 code units. An input with characters outside the Basic Multilingual Plane, such as "😀😀😀x", is cut (or kept whole) by Kotlin where the model throws.
- The `formatDate` of `ui/components/RepositoryItem.kt` (a `SimpleDateFormat` round trip that falls back to the input) is not part of this model; only the `ui/utility/util.kt` one is.
- `SearchState` is reduced to its `searchText` field, the only one the view model reads or writes.
- The `Loading` variant of `Result` never comes out of the repository layer. The view models treat it as unreachable where the source calls `TODO()`, and `searchSimilarUsers` maps it to `Loading` as the source does.

=== FILE: detail.dfy ===
/** `RepositoryDetailViewModel`: loads one repository by owner and name. */
module RepositoryDetail {
  import opened Model
  import opened ExceptionExtensions
  import opened States
  import opened RepositoryImpl

  class RepositoryDetailViewModel {
    const api: GitHubApi
    var repositoryState: RepositoryDetailState

    /** Every value published so far, the current one last. */
    ghost var repositoryStates: seq<RepositoryDetailState>

    ghost predicate Valid()
      reads this
    {
      repositoryStates != [] && repositoryStates[|repositoryStates| - 1] == repositoryState
    }

    constructor (api: GitHubApi)
      ensures Valid() && this.api == api
      ensures repositoryState == Idle && repositoryStates == [Idle]
    {
      this.api := api;
      repositoryState := Idle;
      repositoryStates := [Idle];
    }

    method PublishRepositoryState(s: RepositoryDetailState)
      requires Valid()
      modifies this`repositoryState, this`repositoryStates
      ensures Valid() && repositoryState == s && repositoryStates == old(repositoryStates) + [s]
    {
      repositoryState := s;
      repositoryStates := repositoryStates + [s];
    }

    /** `loadRepository(owner, repo)`: `Loading`, then the fetched repository or the error's message. */
    method LoadRepository(owner: string, repo: string)
      requires Valid()
      modifies this`repositoryState, this`repositoryStates
      ensures Valid()
      ensures repositoryStates == old(repositoryStates) + [UiState.Loading, Published(GetRepository(api, owner, repo))]
      ensures repositoryState.Success? || repositoryState.Error?
      ensures repositoryState.Success? <==> api.getRepository(owner, repo).Returned?
      ensures repositoryState.Success? ==> repositoryState.value == api.getRepository(owner, repo).value
      ensures repositoryState.Error? ==>
        repositoryState.message == UserFriendlyMessage(api.getRepository(owner, repo).exception)
    {
      PublishRepositoryState(UiState.Loading);
      var result := GetRepository(api, owner, repo);
      match result {
        case Success(repository) =>
          PublishRepositoryState(UiState.Success(repository));
        case Error(e) =>
          PublishRepositoryState(UiState.Error(UserFriendlyMessage(e)));
        case Loading =>
          assert false;
      }
    }
  }
}

=== FILE: errors.dfy ===
/** `Exception.getUserFriendlyMessage()`: the text a screen shows for a failed call. */
module ExceptionExtensions {
  import opened Model

  const TimeoutMessage: string := "Connection timeout. Please check your internet connection."
  const NetworkMessage: string := "Network error. Please check your internet connection."
  const NotFoundMessage: string := "User not found. Please check the username and try again."
  const RateLimitMessage: string := "Rate limit exceeded. Please try again later."
  const ServerErrorMessage: string := "Server error occurred. Please try again later."
  const UnexpectedMessage: string := "An unexpected error occurred. Please try again."

  /** Every text the classification can produce. */
  const FriendlyMessages: set<string> :=
    {TimeoutMessage, NetworkMessage, NotFoundMessage, RateLimitMessage, ServerErrorMessage, UnexpectedMessage}

  /** The cases are tried in order: a timeout is an I/O exception too, and is recognised first. */
  function UserFriendlyMessage(e: Exception): (m: string)
    ensures m in FriendlyMessages
    ensures m == TimeoutMessage <==> e.SocketTimeoutException?
    ensures m == NetworkMessage <==> e.IsIO() && !e.SocketTimeoutException?
    ensures m == NotFoundMessage <==> e.HttpException? && e.code == 404
    ensures m == RateLimitMessage <==> e.HttpException? && e.code == 403
    ensures m == ServerErrorMessage <==> e.HttpException? && e.code != 404 && e.code != 403
    ensures m == UnexpectedMessage <==> !e.IsIO() && !e.HttpException?
  {
    if e.SocketTimeoutException? then TimeoutMessage
    else if e.IsIO() then NetworkMessage
    else if e.HttpException? then
      if e.code == 404 then NotFoundMessage
      else if e.code == 403 then RateLimitMessage
      else ServerErrorMessage
    else UnexpectedMessage
  }

  /** Two exceptions get the same text exactly when they fall in the same case. */
  lemma SameMessageSameCase(e1: Exception, e2: Exception)
    ensures UserFriendlyMessage(e1) == UserFriendlyMessage(e2) <==>
      && e1.SocketTimeoutException? == e2.SocketTimeoutException?
      && e1.IsIO() == e2.IsIO()
      && e1.HttpException? == e2.HttpException?
      && (e1.HttpException? ==> (e1.code == 404) == (e2.code == 404) && (e1.code == 403) == (e2.code == 403))
  {
  }
}

=== FILE: model.dfy ===
/**
 * The records the app receives from the GitHub REST API, the exceptions its
 * calls can throw, the `Result` wrapper of the repository layer and the
 * API service itself, taken as an input: each endpoint is a total function
 * from its arguments to what the call does (returns a value or throws).
 */
module Model {

  datatype Option<+T> = None | Some(value: T) {
    /** Kotlin's `x ?: default`. */
    function GetOr(default: T): T {
      match this
      case Some(v) => v
      case None => default
    }
  }

  /**
   * The exceptions the calls can throw.  `SocketTimeoutException` is a
   * subclass of `java.io.IOException`; `IOException(name)` stands for every
   * other subclass of it.  Retrofit's `HttpException` carries the status code.
   */
  datatype Exception =
    | SocketTimeoutException
    | IOException(name: string)
    | HttpException(code: int)
    | OtherException(name: string)
  {
    /** `this is IOException`. */
    predicate IsIO() {
      SocketTimeoutException? || IOException?
    }
  }

  /** What one call into code outside the model does: returns a value or throws. */
  datatype Outcome<+T> = Returned(value: T) | Threw(exception: Exception)

  /** `domain.model.Result`: the repository layer's wrapper. */
  datatype Result<+T> = Success(data: T) | Error(exception: Exception) | Loading

  /** `data.model.Owner`. */
  datatype Owner = Owner(login: string, id: int, avatar_url: string, html_url: string, ownerType: string)

  /** `data.model.User`. */
  datatype User = User(
    login: string,
    id: int,
    avatar_url: string,
    html_url: string,
    name: Option<string>,
    company: Option<string>,
    blog: Option<string>,
    location: Option<string>,
    email: Option<string>,
    bio: Option<string>,
    twitter_username: Option<string>,
    public_repos: int,
    public_gists: int,
    followers: int,
    following: int,
    created_at: string,
    updated_at: string)

  /** `data.model.Repository`, with the fields the app reads. */
  datatype Repository = Repository(
    id: int,
    name: string,
    owner: Owner,
    description: Option<string>,
    language: Option<string>,
    fork: bool,
    stargazers_count: int,
    watchers_count: int,
    forks_count: int,
    size: int,
    created_at: string,
    updated_at: string,
    pushed_at: string)

  /** `data.model.SearchUsersResponse`. */
  datatype SearchUsersResponse = SearchUsersResponse(total_count: int, incomplete_results: bool, items: seq<User>)

  /** The default `sort` and `direction` query parameters of `getUserRepositories`. */
  const DefaultSort: string := "updated"
  const DefaultDirection: string := "desc"

  /** `GitHubApiService`: one function per endpoint. */
  datatype GitHubApi = GitHubApi(
    getUser: string -> Outcome<User>,
    searchUsers: (string, int) -> Outcome<SearchUsersResponse>,
    getUserRepositories: (string, int, int, string, string) -> Outcome<seq<Repository>>,
    getRepository: (string, string) -> Outcome<Repository>)
}

=== FILE: navigation.dfy ===
/**
 * `Screen`: the navigation routes.  Each screen has a route template with
 * `{placeholder}` arguments, and `createRoute` splices the arguments in
 * without escaping them.
 */
module Navigation {
  import opened Model

  /** A piece of a route template: literal text, or a `{name}` placeholder. */
  datatype Segment = Text(text: string) | Placeholder(name: string)

  /** One segment as the navigation graph sees it, a placeholder written `{name}`. */
  function RenderSegment(segment: Segment): string {
    match segment
    case Text(t) => t
    case Placeholder(n) => "{" + n + "}"
  }

  function Render(template: seq<Segment>): string {
    if template == [] then "" else RenderSegment(template[0]) + Render(template[1..])
  }

  /** One segment with a placeholder replaced verbatim by its argument; a missing argument stays as is. */
  function FillSegment(segment: Segment, args: map<string, string>): string {
    match segment
    case Text(t) => t
    case Placeholder(n) => if n in args then args[n] else RenderSegment(segment)
  }

  function Fill(template: seq<Segment>, args: map<string, string>): string {
    if template == [] then "" else FillSegment(template[0], args) + Fill(template[1..], args)
  }

  datatype Screen = Search | Profile | Repositories | RepositoryDetail {
    function Template(): seq<Segment> {
      match this
      case Search => [Text("search")]
      case Profile => [Text("profile/"), Placeholder("username")]
      case Repositories => [Text("repositories/"), Placeholder("username")]
      case RepositoryDetail => [Text("repository/"), Placeholder("owner"), Text("/"), Placeholder("repo")]
    }

    /** The route string the navigation graph registers. */
    function Route(): string {
      Render(Template())
    }
  }

  lemma RenderCons(segment: Segment, rest: seq<Segment>)
    ensures Render([segment] + rest) == RenderSegment(segment) + Render(rest)
  {
    assert ([segment] + rest)[1..] == rest;
  }

  lemma FillCons(segment: Segment, rest: seq<Segment>, args: map<string, string>)
    ensures Fill([segment] + rest, args) == FillSegment(segment, args) + Fill(rest, args)
  {
    assert ([segment] + rest)[1..] == rest;
  }

  /** The route strings, one lemma per screen. */
  lemma SearchRouteIsRegistered()
    ensures Search.Route() == "search"
  {
    RenderCons(Text("search"), []);
  }

  lemma ProfileRouteIsRegistered()
    ensures Profile.Route() == "profile/{username}"
  {
    RenderCons(Placeholder("username"), []);
    RenderCons(Text("profile/"), [Placeholder("username")]);
  }

  lemma RepositoriesRouteIsRegistered()
    ensures Repositories.Route() == "repositories/{username}"
  {
    RenderCons(Placeholder("username"), []);
    RenderCons(Text("repositories/"), [Placeholder("username")]);
  }

  lemma RepositoryDetailRouteIsRegistered()
    ensures RepositoryDetail.Route() == "repository/{owner}/{repo}"
  {
    RenderCons(Placeholder("repo"), []);
    RenderCons(Text("/"), [Placeholder("repo")]);
    RenderCons(Placeholder("owner"), [Text("/"), Placeholder("repo")]);
    RenderCons(Text("repository/"), [Placeholder("owner"), Text("/"), Placeholder("repo")]);
  }

  /** `Profile.createRoute(username)`. */
  function CreateProfileRoute(username: string): (route: string)
    ensures |route| == 8 + |username| && route[..8] == "profile/" && route[8..] == username
  {
    "profile/" + username
  }

  /** `Repositories.createRoute(username)`. */
  function CreateRepositoriesRoute(username: string): (route: string)
    ensures |route| == 13 + |username| && route[..13] == "repositories/" && route[13..] == username
  {
    "repositories/" + username
  }

  /** `RepositoryDetail.createRoute(owner, repo)`. */
  function CreateRepositoryDetailRoute(owner: string, repo: string): (route: string)
    ensures |route| == 12 + |owner| + |repo| && route[..11] == "repository/"
    ensures route[11..11 + |owner|] == owner && route[11 + |owner|] == '/' && route[12 + |owner|..] == repo
  {
    "repository/" + owner + "/" + repo
  }

  /** `Profile.createRoute(u)` is the template with `{username}` replaced by `u` verbatim. */
  lemma ProfileRouteFillsTemplate(username: string)
    ensures CreateProfileRoute(username) == Fill(Profile.Template(), map["username" := username])
  {
    var m := map["username" := username];
    FillCons(Placeholder("username"), [], m);
    FillCons(Text("profile/"), [Placeholder("username")], m);
  }

  /** `Repositories.createRoute(u)` is the template with `{username}` replaced by `u` verbatim. */
  lemma RepositoriesRouteFillsTemplate(username: string)
    ensures CreateRepositoriesRoute(username) == Fill(Repositories.Template(), map["username" := username])
  {
    var m := map["username" := username];
    FillCons(Placeholder("username"), [], m);
    FillCons(Text("repositories/"), [Placeholder("username")], m);
  }

  /** `RepositoryDetail.createRoute(o, r)` is the template with `{owner}` and `{repo}` replaced verbatim. */
  lemma RepositoryDetailRouteFillsTemplate(owner: string, repo: string)
    ensures CreateRepositoryDetailRoute(owner, repo) ==
      Fill(RepositoryDetail.Template(), map["owner" := owner, "repo" := repo])
  {
    var m := map["owner" := owner, "repo" := repo];
    FillCons(Placeholder("repo"), [], m);
    FillCons(Text("/"), [Placeholder("repo")], m);
    FillCons(Placeholder("owner"), [Text("/"), Placeholder("repo")], m);
    FillCons(Text("repository/"), [Placeholder("owner"), Text("/"), Placeholder("repo")], m);
  }

  /** The position of the first `c` in `s`, if any. */
  function IndexOf(s: string, c: char): (r: Option<nat>)
    ensures r.None? <==> c !in s
    ensures r.Some? ==> r.value < |s| && s[r.value] == c && c !in s[..r.value]
  {
    if s == [] then None
    else if s[0] == c then Some(0)
    else match IndexOf(s[1..], c)
      case None => None
      case Some(i) =>
        assert s[..i + 1] == [s[0]] + s[1..][..i];
        Some(i + 1)
  }

  lemma SplitAround(s: string, i: nat)
    requires i < |s|
    ensures s == s[..i] + [s[i]] + s[i + 1..]
  {
  }

  /** The argument of a `profile/{username}` route: everything after the prefix. */
  function ParseProfileRoute(route: string): (r: Option<string>)
    ensures r.Some? ==> CreateProfileRoute(r.value) == route
  {
    if |route| >= 8 && route[..8] == "profile/" then Some(route[8..]) else None
  }

  /** The arguments of a `repository/{owner}/{repo}` route, split at the first `/` after the prefix. */
  function ParseRepositoryDetailRoute(route: string): (r: Option<(string, string)>)
    ensures r.Some? ==> CreateRepositoryDetailRoute(r.value.0, r.value.1) == route && '/' !in r.value.0
  {
    if |route| >= 11 && route[..11] == "repository/" then
      var rest := route[11..];
      match IndexOf(rest, '/')
      case None => None
      case Some(i) =>
        SplitAround(rest, i);
        assert route == "repository/" + rest;
        Some((rest[..i], rest[i + 1..]))
    else None
  }

  lemma ProfileRouteRoundTrip(username: string)
    ensures ParseProfileRoute(CreateProfileRoute(username)) == Some(username)
  {
    assert CreateProfileRoute(username)[8..] == username;
  }

  /** Different usernames give different profile routes. */
  lemma ProfileRouteInjective(a: string, b: string)
    ensures CreateProfileRoute(a) == CreateProfileRoute(b) ==> a == b
  {
    ProfileRouteRoundTrip(a);
    ProfileRouteRoundTrip(b);
  }

  lemma RepositoriesRouteInjective(a: string, b: string)
    ensures CreateRepositoriesRoute(a) == CreateRepositoriesRoute(b) ==> a == b
  {
    assert CreateRepositoriesRoute(a)[13..] == a;
    assert CreateRepositoriesRoute(b)[13..] == b;
  }

  /** An owner without `/` can be read back from the route, and so can the repository name. */
  lemma RepositoryDetailRouteRoundTrip(owner: string, repo: string)
    requires '/' !in owner
    ensures ParseRepositoryDetailRoute(CreateRepositoryDetailRoute(owner, repo)) == Some((owner, repo))
  {
    var route := CreateRepositoryDetailRoute(owner, repo);
    var rest := route[11..];
    assert rest == owner + "/" + repo;
    assert rest[|owner|] == '/';
    assert rest[..|owner|] == owner;
    var i := IndexOf(rest, '/');
    assert i == Some(|owner|);
    assert rest[|owner| + 1..] == repo;
  }

  lemma RepositoryDetailRouteInjective(o1: string, r1: string, o2: string, r2: string)
    requires '/' !in o1 && '/' !in o2
    ensures CreateRepositoryDetailRoute(o1, r1) == CreateRepositoryDetailRoute(o2, r2) ==> o1 == o2 && r1 == r2
  {
    RepositoryDetailRouteRoundTrip(o1, r1);
    RepositoryDetailRouteRoundTrip(o2, r2);
  }

  /** Without that condition the route does not determine its arguments. */
  lemma RepositoryDetailRouteAmbiguous()
    ensures exists o1, r1, o2, r2 :: o1 != o2 && CreateRepositoryDetailRoute(o1, r1) == CreateRepositoryDetailRoute(o2, r2)
  {
    assert CreateRepositoryDetailRoute("a/b", "c") == CreateRepositoryDetailRoute("a", "b/c");
  }
}

=== FILE: paging.dfy ===
/**
 * `RepositoryPagingSource`: loads one page of a user's repositories, filters
 * it by the search query and computes the neighbouring page keys; and the
 * key a refresh restarts from.
 */
module Paging {
  import opened Model
  import opened Seqs
  import opened Text

  /** The fixed inputs of one paging session. */
  datatype RepositoryPagingSource = RepositoryPagingSource(username: string, searchQuery: string)

  /** `PagingSource.LoadParams`: the requested key (absent on the first load) and page size. */
  datatype LoadParams = LoadParams(key: Option<int>, loadSize: int)

  /** `LoadResult.Page`. */
  datatype Page = Page(data: seq<Repository>, prevKey: Option<int>, nextKey: Option<int>)

  /** `PagingSource.LoadResult`: a page, or the exception that ended the load. */
  datatype LoadResult = LoadPage(page: Page) | LoadError(exception: Exception)

  /**
   * `PagingState`, reduced to what `getRefreshKey` reads: the most recently
   * accessed position, if any, and the paging library's lookup of the loaded
   * page closest to a position.
   */
  datatype PagingState = PagingState(anchorPosition: Option<int>, closestPageToPosition: int -> Option<Page>)

  /** `params.key ?: 1`. */
  function PageNumber(params: LoadParams): (page: int)
    ensures params.key.None? ==> page == 1
    ensures params.key.Some? ==> page == params.key.value
  {
    params.key.GetOr(1)
  }

  /** The repository's name, description or language contains the query, ignoring case. */
  function MatchesQuery(query: string, repo: Repository): (m: bool)
    ensures m <==>
      || (exists i :: OccursAt(Lower(repo.name), Lower(query), i))
      || (repo.description.Some? && exists i :: OccursAt(Lower(repo.description.value), Lower(query), i))
      || (repo.language.Some? && exists i :: OccursAt(Lower(repo.language.value), Lower(query), i))
    ensures repo.description.None? && repo.language.None? ==> (m <==> ContainsIgnoreCase(repo.name, query))
    ensures query == [] ==> m
  {
    || ContainsIgnoreCase(repo.name, query)
    || (repo.description.Some? && ContainsIgnoreCase(repo.description.value, query))
    || (repo.language.Some? && ContainsIgnoreCase(repo.language.value, query))
  }

  function Matcher(query: string): Repository -> bool {
    (repo: Repository) => MatchesQuery(query, repo)
  }

  /** The page data: everything for a blank query, otherwise the matching repositories in upstream order. */
  function FilterRepositories(repos: seq<Repository>, query: string): (r: seq<Repository>)
    ensures IsBlank(query) ==> r == repos
    ensures !IsBlank(query) ==> forall x :: x in r <==> x in repos && MatchesQuery(query, x)
    ensures !IsBlank(query) ==>
      forall x :: x in repos ==> multiset(r)[x] == if MatchesQuery(query, x) then multiset(repos)[x] else 0
    ensures IsSubsequence(r, repos) && |r| <= |repos|
  {
    if IsBlank(query) then
      SubsequenceOfSelf(repos);
      repos
    else
      FilterCount(Matcher(query), repos);
      FilterIsSubsequence(Matcher(query), repos);
      SubsequenceLength(Filter(Matcher(query), repos), repos);
      Filter(Matcher(query), repos)
  }

  lemma {:induction false} SubsequenceOfSelf<T>(s: seq<T>)
    ensures IsSubsequence(s, s)
    decreases |s|
  {
    if s != [] {
      SubsequenceOfSelf(s[1..]);
    }
  }

  /** `load(params)`: one page of the user's repositories, or the exception the fetch threw. */
  function Load(source: RepositoryPagingSource, params: LoadParams, api: GitHubApi): (r: LoadResult)
    ensures var fetched := api.getUserRepositories(source.username, PageNumber(params), params.loadSize, DefaultSort, DefaultDirection);
      && (r.LoadError? <==> fetched.Threw?)
      && (r.LoadError? ==> r.exception == fetched.exception)
      && (r.LoadPage? ==> r.page.data == FilterRepositories(fetched.value, source.searchQuery))
    ensures r.LoadPage? ==> (r.page.prevKey.None? <==> PageNumber(params) == 1)
    ensures r.LoadPage? && r.page.prevKey.Some? ==> r.page.prevKey.value == PageNumber(params) - 1
    ensures r.LoadPage? ==> (r.page.nextKey.None? <==>
      api.getUserRepositories(source.username, PageNumber(params), params.loadSize, DefaultSort, DefaultDirection).value == [])
    ensures r.LoadPage? && r.page.nextKey.Some? ==> r.page.nextKey.value == PageNumber(params) + 1
  {
    var page := PageNumber(params);
    match api.getUserRepositories(source.username, page, params.loadSize, DefaultSort, DefaultDirection)
    case Threw(e) => LoadError(e)
    case Returned(repositories) =>
      LoadPage(Page(
        FilterRepositories(repositories, source.searchQuery),
        if page == 1 then None else Some(page - 1),
        if repositories == [] then None else Some(page + 1)))
  }

  /** `getRefreshKey(state)`: the key to reload from around the anchor position. */
  function GetRefreshKey(state: PagingState): (key: Option<int>)
    ensures state.anchorPosition.None? ==> key.None?
    ensures state.anchorPosition.Some? ==>
      match state.closestPageToPosition(state.anchorPosition.value)
      case None => key.None?
      case Some(p) =>
        if p.prevKey.Some? then key == Some(p.prevKey.value + 1)
        else if p.nextKey.Some? then key == Some(p.nextKey.value - 1)
        else key.None?
  {
    match state.anchorPosition
    case None => None
    case Some(anchorPosition) =>
      match state.closestPageToPosition(anchorPosition)
      case None => None
      case Some(p) =>
        if p.prevKey.Some? then Some(p.prevKey.value + 1)
        else if p.nextKey.Some? then Some(p.nextKey.value - 1)
        else None
  }

  /**
   * A refresh anchored in a page that `Load` produced restarts from that
   * page's own key, unless the page was the first one and came back empty,
   * which leaves no key to derive it from.
   */
  lemma RefreshKeyOfLoadedPage(source: RepositoryPagingSource, params: LoadParams, api: GitHubApi, state: PagingState)
    requires state.anchorPosition.Some?
    requires Load(source, params, api).LoadPage?
    requires state.closestPageToPosition(state.anchorPosition.value) == Some(Load(source, params, api).page)
    ensures var upstream := api.getUserRepositories(source.username, PageNumber(params), params.loadSize, DefaultSort, DefaultDirection).value;
      GetRefreshKey(state) == if PageNumber(params) == 1 && upstream == [] then None else Some(PageNumber(params))
  {
  }
}

=== FILE: profile.dfy ===
/**
 * `ProfileViewModel`: loads a user, then that user's popular repositories.
 * The launched block runs to the end as one sequential call; a ghost log
 * records every value assigned to `userState` or `popularReposState`, in order (a
 * `MutableStateFlow` does not re-emit a value equal to the one it holds).
 */
module Profile {
  import opened Model
  import opened ExceptionExtensions
  import opened States
  import opened RepositoryImpl

  /** One assignment to a state holder of the view model. */
  datatype Event =
    | UserAssigned(user: UserState)
    | PopularReposAssigned(popularRepos: PopularReposState)

  /** The value last assigned to `userState` in `log`, if any. */
  ghost function LastUserState(log: seq<Event>): Option<UserState>
    decreases |log|
  {
    if log == [] then None
    else if log[|log| - 1].UserAssigned? then Some(log[|log| - 1].user)
    else LastUserState(log[..|log| - 1])
  }

  ghost function LastPopularReposState(log: seq<Event>): Option<PopularReposState>
    decreases |log|
  {
    if log == [] then None
    else if log[|log| - 1].PopularReposAssigned? then Some(log[|log| - 1].popularRepos)
    else LastPopularReposState(log[..|log| - 1])
  }

  class ProfileViewModel {
    const api: GitHubApi
    var userState: UserState
    var repositoriesState: RepositoriesState
    var popularReposState: PopularReposState

    /** Every assignment to `userState` and `popularReposState` so far, the latest last. */
    ghost var log: seq<Event>

    /** Each state holder holds the value last assigned to it; `repositoriesState` is never written. */
    ghost predicate Valid()
      reads this
    {
      && LastUserState(log) == Some(userState)
      && LastPopularReposState(log) == Some(popularReposState)
      && repositoriesState == Idle
    }

    constructor (api: GitHubApi)
      ensures Valid() && this.api == api
      ensures userState == Idle && repositoriesState == Idle && popularReposState == Idle
      ensures log == [UserAssigned(Idle), PopularReposAssigned(Idle)]
    {
      this.api := api;
      userState := Idle;
      repositoriesState := Idle;
      popularReposState := Idle;
      var initial := [UserAssigned(Idle), PopularReposAssigned(Idle)];
      assert initial[..1] == [UserAssigned(Idle)];
      log := initial;
    }

    method PublishUserState(s: UserState)
      requires Valid()
      modifies this`userState, this`log
      ensures Valid() && userState == s && log == old(log) + [UserAssigned(s)]
    {
      userState := s;
      log := log + [UserAssigned(s)];
      assert log[..|log| - 1] == old(log);
    }

    method PublishPopularReposState(s: PopularReposState)
      requires Valid()
      modifies this`popularReposState, this`log
      ensures Valid() && popularReposState == s && log == old(log) + [PopularReposAssigned(s)]
    {
      popularReposState := s;
      log := log + [PopularReposAssigned(s)];
      assert log[..|log| - 1] == old(log);
    }

    /** `loadPopularRepositories(username)`: `Loading`, then the popular list or the error's message. */
    method LoadPopularRepositories(username: string)
      requires Valid()
      modifies this`popularReposState, this`log
      ensures Valid() && userState == old(userState)
      ensures popularReposState == Published(GetPopularRepositories(api, username))
      ensures log == old(log) + [PopularReposAssigned(UiState.Loading), PopularReposAssigned(popularReposState)]
      ensures popularReposState.Success? || popularReposState.Error?
      ensures popularReposState.Success? ==>
        IsPopularSelection(popularReposState.value, FetchPopularCandidates(api, username).value)
    {
      PublishPopularReposState(UiState.Loading);
      var result := GetPopularRepositories(api, username);
      match result {
        case Success(repos) =>
          PublishPopularReposState(UiState.Success(repos));
        case Error(e) =>
          PublishPopularReposState(UiState.Error(UserFriendlyMessage(e)));
        case Loading =>
          assert false;
      }
    }

    /**
     * `loadUserProfile(username)`: `Loading`, then the user or the error's
     * message; only a found user goes on to load the popular repositories,
     * after the user has been published.
     */
    method LoadUserProfile(username: string)
      requires Valid()
      modifies this`userState, this`popularReposState, this`log
      ensures Valid()
      ensures var found := GetUser(api, username);
        var popular := GetPopularRepositories(api, username);
        && userState == Published(found)
        && popularReposState == (if found.Success? then Published(popular) else old(popularReposState))
        && log == old(log) + [UserAssigned(UiState.Loading), UserAssigned(userState)] +
             (if found.Success? then [PopularReposAssigned(UiState.Loading), PopularReposAssigned(Published(popular))] else [])
      ensures userState.Success? || userState.Error?
    {
      PublishUserState(UiState.Loading);
      var userResult := GetUser(api, username);
      match userResult {
        case Success(user) =>
          PublishUserState(UiState.Success(user));
          LoadPopularRepositories(username);
        case Error(e) =>
          PublishUserState(UiState.Error(UserFriendlyMessage(e)));
        case Loading =>
          assert false;
      }
    }
  }
}

=== FILE: repository.dfy ===
/**
 * `GitHubRepositoryImpl`: each call into the API service is wrapped so that
 * it never throws, and the popular repositories of a user are derived from
 * the first page of their repositories.
 */
module RepositoryImpl {
  import opened Model
  import opened Seqs

  /** `try { Result.Success(call()) } catch (e: Exception) { Result.Error(e) }`. */
  function Capture<T>(call: Outcome<T>): (r: Result<T>)
    ensures !r.Loading?
    ensures r.Success? <==> call.Returned?
    ensures r.Success? ==> r.data == call.value
    ensures r.Error? ==> r.exception == call.exception
  {
    match call
    case Returned(v) => Success(v)
    case Threw(e) => Error(e)
  }

  /** What a consumer of a captured result sees: the value, or the exception thrown again. */
  function Rethrow<T>(r: Result<T>): Outcome<T>
    requires !r.Loading?
  {
    match r
    case Success(v) => Returned(v)
    case Error(e) => Threw(e)
  }

  /** Capturing loses nothing: the call's outcome can be read back from the wrapper. */
  lemma CaptureRoundTrip<T>(call: Outcome<T>)
    ensures Rethrow(Capture(call)) == call
  {
  }

  function GetUser(api: GitHubApi, username: string): (r: Result<User>)
    ensures !r.Loading?
    ensures Rethrow(r) == api.getUser(username)
  {
    Capture(api.getUser(username))
  }

  /** Searches with 10 results per page and keeps only the response's items. */
  function SearchUsers(api: GitHubApi, query: string): (r: Result<seq<User>>)
    ensures !r.Loading?
    ensures r.Success? <==> api.searchUsers(query, 10).Returned?
    ensures r.Success? ==> r.data == api.searchUsers(query, 10).value.items
    ensures r.Error? ==> r.exception == api.searchUsers(query, 10).exception
  {
    match api.searchUsers(query, 10)
    case Returned(response) => Success(response.items)
    case Threw(e) => Error(e)
  }

  function GetRepository(api: GitHubApi, owner: string, repo: string): (r: Result<Repository>)
    ensures !r.Loading?
    ensures Rethrow(r) == api.getRepository(owner, repo)
  {
    Capture(api.getRepository(owner, repo))
  }

  function IsNotFork(r: Repository): bool {
    !r.fork
  }

  /** Inserts `x` before the first element with no more stars than it has. */
  function InsertByStars(x: Repository, s: seq<Repository>): (r: seq<Repository>)
    ensures multiset(r) == multiset(s) + multiset{x}
    ensures r[0] == x || (s != [] && r[0] == s[0])
    ensures IsSortedByStars(s) ==> IsSortedByStars(r)
  {
    if s == [] || x.stargazers_count >= s[0].stargazers_count then
      ConsSorted(x, s);
      [x] + s
    else
      var rest := InsertByStars(x, s[1..]);
      assert s == [s[0]] + s[1..];
      ConsSorted(s[0], rest);
      TailSorted(s);
      [s[0]] + rest
  }

  /** A sorted list stays sorted under a new head with at least the old head's stars. */
  lemma ConsSorted(h: Repository, t: seq<Repository>)
    ensures IsSortedByStars(t) && (t == [] || h.stargazers_count >= t[0].stargazers_count) ==> IsSortedByStars([h] + t)
  {
    if IsSortedByStars(t) && (t == [] || h.stargazers_count >= t[0].stargazers_count) {
      assert forall i :: 0 <= i < |t| ==> ([h] + t)[i + 1] == t[i];
    }
  }

  lemma TailSorted(s: seq<Repository>)
    requires s != []
    ensures IsSortedByStars(s) ==> IsSortedByStars(s[1..])
  {
    if IsSortedByStars(s) {
      assert forall i :: 0 <= i < |s| - 1 ==> s[1..][i] == s[i + 1];
    }
  }

  /** `sortedByDescending { it.stargazers_count }`: a stable insertion sort. */
  function SortByStarsDescending(s: seq<Repository>): (r: seq<Repository>)
    ensures multiset(r) == multiset(s)
    ensures IsSortedByStars(r)
  {
    if s == [] then []
    else
      assert s == [s[0]] + s[1..];
      InsertByStars(s[0], SortByStarsDescending(s[1..]))
  }

  /** Adjacent elements never gain stars. */
  ghost predicate IsSortedByStars(s: seq<Repository>) {
    forall i :: 0 < i < |s| ==> s[i - 1].stargazers_count >= s[i].stargazers_count
  }

  lemma {:induction false} SortedPairwise(s: seq<Repository>, i: int, j: int)
    requires IsSortedByStars(s) && 0 <= i <= j < |s|
    ensures s[i].stargazers_count >= s[j].stargazers_count
    decreases j - i
  {
    if i < j {
      SortedPairwise(s, i, j - 1);
    }
  }

  /** The repositories with exactly `stars` stars. */
  function HasStars(stars: int): Repository -> bool {
    (r: Repository) => r.stargazers_count == stars
  }

  lemma FilterCons(f: Repository -> bool, a: Repository, t: seq<Repository>)
    ensures Filter(f, [a] + t) == (if f(a) then [a] else []) + Filter(f, t)
  {
    assert ([a] + t)[1..] == t;
  }

  lemma SwapWhenOneEmpty<T>(a: seq<T>, b: seq<T>, c: seq<T>)
    requires a == [] || b == []
    ensures a + (b + c) == b + (a + c)
  {
    if a == [] {
      assert a + (b + c) == b + c;
      assert a + c == c;
    } else {
      assert b + c == c;
      assert b + (a + c) == a + c;
    }
  }

  lemma {:induction false} InsertByStarsStable(x: Repository, s: seq<Repository>, stars: int)
    ensures Filter(HasStars(stars), InsertByStars(x, s)) == Filter(HasStars(stars), [x] + s)
    decreases |s|
  {
    var f := HasStars(stars);
    if s != [] && x.stargazers_count < s[0].stargazers_count {
      var head, tail := s[0], s[1..];
      var rest := InsertByStars(x, tail);
      assert InsertByStars(x, s) == [head] + rest;
      assert s == [head] + tail;
      InsertByStarsStable(x, tail, stars);
      FilterCons(f, head, rest);
      FilterCons(f, x, tail);
      FilterCons(f, x, s);
      FilterCons(f, head, tail);
      var keepX := if f(x) then [x] else [];
      var keepHead := if f(head) then [head] else [];
      assert keepX == [] || keepHead == [];
      calc {
        Filter(f, [head] + rest);
        keepHead + Filter(f, rest);
        keepHead + (keepX + Filter(f, tail));
        { SwapWhenOneEmpty(keepHead, keepX, Filter(f, tail)); }
        keepX + (keepHead + Filter(f, tail));
        keepX + Filter(f, s);
        Filter(f, [x] + s);
      }
    }
  }

  /** The sort is stable: repositories with equal stars keep their relative order. */
  lemma {:induction false} SortByStarsStable(s: seq<Repository>, stars: int)
    ensures Filter(HasStars(stars), SortByStarsDescending(s)) == Filter(HasStars(stars), s)
    decreases |s|
  {
    if s != [] {
      var f := HasStars(stars);
      var sorted := SortByStarsDescending(s[1..]);
      SortByStarsStable(s[1..], stars);
      InsertByStarsStable(s[0], sorted, stars);
      FilterCons(f, s[0], sorted);
      assert s == [s[0]] + s[1..];
      FilterCons(f, s[0], s[1..]);
    }
  }

  /** The page of repositories `getPopularRepositories` fetches: page 1, 30 per page, most recently updated first. */
  function FetchPopularCandidates(api: GitHubApi, username: string): Outcome<seq<Repository>> {
    api.getUserRepositories(username, 1, 30, "updated", "desc")
  }

  /** `filter { !it.fork }.sortedByDescending { it.stargazers_count }.take(5)`. */
  function PopularRepositories(repos: seq<Repository>): (r: seq<Repository>)
    ensures IsPopularSelection(r, repos)
  {
    PopularRepositoriesSelect(repos);
    Take(SortByStarsDescending(Filter(IsNotFork, repos)), 5)
  }

  /** What the popular list promises about the page it was taken from. */
  ghost predicate IsPopularSelection(r: seq<Repository>, repos: seq<Repository>) {
    var candidates := Filter(IsNotFork, repos);
    && (forall x :: x in r ==> !x.fork)
    && |r| == Min(5, |candidates|)
    && multiset(r) <= multiset(candidates)
    && (forall i, j :: 0 <= i < j < |r| ==> r[i].stargazers_count >= r[j].stargazers_count)
    && (forall x, y :: multiset(r)[x] < multiset(candidates)[x] && y in r ==> x.stargazers_count <= y.stargazers_count)
    && (forall stars :: IsPrefix(Filter(HasStars(stars), r), Filter(HasStars(stars), candidates)))
  }

  ghost predicate IsPrefix<T>(a: seq<T>, b: seq<T>) {
    |a| <= |b| && a == b[..|a|]
  }

  lemma PopularRepositoriesSelect(repos: seq<Repository>)
    ensures IsPopularSelection(Take(SortByStarsDescending(Filter(IsNotFork, repos)), 5), repos)
  {
    var candidates := Filter(IsNotFork, repos);
    var sorted := SortByStarsDescending(candidates);
    var r := Take(sorted, 5);
    TakeOfSorted(sorted, r);
    forall x | x in r ensures !x.fork {
      assert x in multiset(r);
      assert x in multiset(candidates);
      assert x in candidates;
      assert IsNotFork(x);
    }
    assert |r| == Min(5, |candidates|);
    forall stars ensures IsPrefix(Filter(HasStars(stars), r), Filter(HasStars(stars), candidates)) {
      FilterOfPrefix(HasStars(stars), sorted, |r|);
      SortByStarsStable(candidates, stars);
    }
  }

  /** A prefix of a list sorted by stars is sorted, and no copy left after it has more stars than an element in it. */
  lemma TakeOfSorted(sorted: seq<Repository>, r: seq<Repository>)
    requires IsSortedByStars(sorted) && |r| <= |sorted| && r == sorted[..|r|]
    ensures multiset(r) <= multiset(sorted)
    ensures forall i, j :: 0 <= i < j < |r| ==> r[i].stargazers_count >= r[j].stargazers_count
    ensures forall x, y :: multiset(r)[x] < multiset(sorted)[x] && y in r ==> x.stargazers_count <= y.stargazers_count
  {
    var rest := sorted[|r|..];
    assert sorted == r + rest;
    assert multiset(sorted) == multiset(r) + multiset(rest);
    forall i, j | 0 <= i < j < |r| ensures r[i].stargazers_count >= r[j].stargazers_count {
      SortedPairwise(sorted, i, j);
    }
    forall x, y | multiset(r)[x] < multiset(sorted)[x] && y in r ensures x.stargazers_count <= y.stargazers_count {
      assert x in multiset(rest);
      var j :| 0 <= j < |rest| && rest[j] == x;
      var i :| 0 <= i < |r| && r[i] == y;
      assert sorted[|r| + j] == x;
      SortedPairwise(sorted, i, |r| + j);
    }
  }

  function GetPopularRepositories(api: GitHubApi, username: string): (r: Result<seq<Repository>>)
    ensures !r.Loading?
    ensures r.Success? <==> FetchPopularCandidates(api, username).Returned?
    ensures r.Success? ==> IsPopularSelection(r.data, FetchPopularCandidates(api, username).value)
    ensures r.Error? ==> r.exception == FetchPopularCandidates(api, username).exception
  {
    match FetchPopularCandidates(api, username)
    case Returned(repos) => Success(PopularRepositories(repos))
    case Threw(e) => Error(e)
  }
}

=== FILE: search.dfy ===
/**
 * `SearchViewModel`: looks up the user named in the search box, then the
 * users with similar logins.  Each `viewModelScope.launch` block runs to the
 * end as one sequential call; the 500 ms delay of a refresh is left out.
 * A ghost log records every value assigned to `userState`,
 * `similarUsersState` or `isRefreshing`, in order, so that the intermediate
 * `Loading` and refreshing states, and the order of assignments across those
 * holders, are visible in contracts; `searchState` is not logged.  The log
 * is the sequence of assignments: a `StateFlow` collector sees a subsequence
 * of one holder's assignments that ends with the latest value, never two
 * equal values in a row, and may miss intermediate values such as `Loading`.
 */
module Search {
  import opened Model
  import opened Text
  import opened Seqs
  import opened States
  import opened ExceptionExtensions
  import opened RepositoryImpl

  /** `SearchState`, reduced to the field the view model reads and writes. */
  datatype SearchState = SearchState(searchText: string)

  const SimilarUsersLimit: nat := 5

  function IsOtherLogin(query: string): User -> bool {
    (u: User) => !EqualsIgnoreCase(u.login, query)
  }

  /** `users.filter { it.login.lowercase() != query.lowercase() }.take(5)`. */
  function SimilarUsers(users: seq<User>, query: string): (r: seq<User>)
    ensures forall u :: u in r ==> u in users && !EqualsIgnoreCase(u.login, query)
    ensures |r| <= SimilarUsersLimit && IsSubsequence(r, users)
    ensures forall u :: u in users && !EqualsIgnoreCase(u.login, query) && u !in r ==> |r| == SimilarUsersLimit
    ensures exists k ::
      && 0 <= k <= |users| && r == Filter(IsOtherLogin(query), users[..k])
      && (|r| < SimilarUsersLimit ==> k == |users|)
  {
    var others := Filter(IsOtherLogin(query), users);
    FilterThenTake(IsOtherLogin(query), users, SimilarUsersLimit);
    assert users[..|users|] == users;
    FilterPrefixAt(IsOtherLogin(query), users, Min(SimilarUsersLimit, |others|));
    var r := Take(others, SimilarUsersLimit);
    assert forall u :: u in r ==> u in others;
    r
  }

  /** What `searchSimilarUsers` publishes for a search result; unlike the other callers it maps `Loading` to `Loading`. */
  function SimilarUsersStateOf(r: Result<seq<User>>, query: string): (s: SimilarUsersState)
    ensures s.Success? <==> r.Success?
    ensures s.Success? ==> s.value == SimilarUsers(r.data, query)
    ensures s.Error? <==> r.Error?
    ensures s.Error? ==> s.message == UserFriendlyMessage(r.exception)
    ensures s.Loading? <==> r.Loading?
  {
    match r
    case Success(users) => UiState.Success(SimilarUsers(users, query))
    case Error(e) => UiState.Error(UserFriendlyMessage(e))
    case Loading => UiState.Loading
  }

  /** One assignment to a state holder of the view model. */
  datatype Event =
    | UserAssigned(user: UserState)
    | SimilarUsersAssigned(similarUsers: SimilarUsersState)
    | RefreshingAssigned(refreshing: bool)

  /** The value last assigned to `userState` in `log`, if any. */
  ghost function LastUserState(log: seq<Event>): Option<UserState>
    decreases |log|
  {
    if log == [] then None
    else if log[|log| - 1].UserAssigned? then Some(log[|log| - 1].user)
    else LastUserState(log[..|log| - 1])
  }

  ghost function LastSimilarUsersState(log: seq<Event>): Option<SimilarUsersState>
    decreases |log|
  {
    if log == [] then None
    else if log[|log| - 1].SimilarUsersAssigned? then Some(log[|log| - 1].similarUsers)
    else LastSimilarUsersState(log[..|log| - 1])
  }

  ghost function LastRefreshing(log: seq<Event>): Option<bool>
    decreases |log|
  {
    if log == [] then None
    else if log[|log| - 1].RefreshingAssigned? then Some(log[|log| - 1].refreshing)
    else LastRefreshing(log[..|log| - 1])
  }

  /**
   * The assignments of the `when (getUserUseCase(username))` block: the user
   * or the error, then, only on success, the similar users found with the
   * same query.
   */
  ghost function LookUpEvents(api: GitHubApi, username: string): seq<Event> {
    var found := GetUser(api, username);
    [UserAssigned(Published(found))] +
      (if found.Success? then [SimilarUsersAssigned(SimilarUsersStateOf(SearchUsers(api, username), username))] else [])
  }

  /** The login `refreshData` reloads: the shown user's, otherwise the trimmed search text. */
  function RefreshTarget(userState: UserState, searchText: string): (target: string)
    ensures userState.Success? ==> target == userState.value.login
    ensures !userState.Success? ==> target == Trim(searchText)
  {
    match userState
    case Success(user) => user.login
    case _ => Trim(searchText)
  }

  /**
   * `refreshData` reloads only the similar users exactly when the search text
   * is not blank and a user whose login is blank is shown: with no user
   * shown, non-blank search text is itself the target of a full reload.
   */
  lemma SimilarUsersOnlyRefresh(userState: UserState, searchText: string)
    ensures IsBlank(RefreshTarget(userState, searchText)) && !IsBlank(Trim(searchText))
      <==> userState.Success? && IsBlank(userState.value.login) && !IsBlank(Trim(searchText))
  {
  }

  class SearchViewModel {
    const api: GitHubApi
    var searchState: SearchState
    var userState: UserState
    var similarUsersState: SimilarUsersState
    var isRefreshing: bool

    /** Every assignment to `userState`, `similarUsersState` and `isRefreshing` so far, the latest last. */
    ghost var log: seq<Event>

    /** Each state holder holds the value last assigned to it. */
    ghost predicate LogMatchesState()
      reads this
    {
      && LastUserState(log) == Some(userState)
      && LastSimilarUsersState(log) == Some(similarUsersState)
      && LastRefreshing(log) == Some(isRefreshing)
    }

    /** Between two calls no refresh is in progress. */
    ghost predicate Valid()
      reads this
    {
      LogMatchesState() && !isRefreshing
    }

    constructor (api: GitHubApi)
      ensures Valid() && this.api == api
      ensures searchState == SearchState("") && userState == Idle && similarUsersState == Idle && !isRefreshing
      ensures log == [UserAssigned(Idle), SimilarUsersAssigned(Idle), RefreshingAssigned(false)]
    {
      this.api := api;
      searchState := SearchState("");
      userState := Idle;
      similarUsersState := Idle;
      isRefreshing := false;
      var initial := [UserAssigned(Idle), SimilarUsersAssigned(Idle), RefreshingAssigned(false)];
      assert initial[..2] == [UserAssigned(Idle), SimilarUsersAssigned(Idle)] && initial[..2][..1] == [UserAssigned(Idle)];
      log := initial;
    }

    method OnSearchTextChange(text: string)
      modifies this`searchState
      ensures searchState == old(searchState).(searchText := text)
    {
      searchState := searchState.(searchText := text);
    }

    method PublishUserState(s: UserState)
      requires LogMatchesState()
      modifies this`userState, this`log
      ensures LogMatchesState() && userState == s && log == old(log) + [UserAssigned(s)]
    {
      userState := s;
      log := log + [UserAssigned(s)];
      assert log[..|log| - 1] == old(log);
    }

    method PublishSimilarUsersState(s: SimilarUsersState)
      requires LogMatchesState()
      modifies this`similarUsersState, this`log
      ensures LogMatchesState() && similarUsersState == s && log == old(log) + [SimilarUsersAssigned(s)]
    {
      similarUsersState := s;
      log := log + [SimilarUsersAssigned(s)];
      assert log[..|log| - 1] == old(log);
    }

    method PublishRefreshing(b: bool)
      requires LogMatchesState()
      modifies this`isRefreshing, this`log
      ensures LogMatchesState() && isRefreshing == b && log == old(log) + [RefreshingAssigned(b)]
    {
      isRefreshing := b;
      log := log + [RefreshingAssigned(b)];
      assert log[..|log| - 1] == old(log);
    }

    /** `searchSimilarUsers(query)`. */
    method SearchSimilarUsers(query: string)
      requires LogMatchesState()
      modifies this`similarUsersState, this`log
      ensures LogMatchesState()
      ensures similarUsersState == SimilarUsersStateOf(SearchUsers(api, query), query)
      ensures log == old(log) + [SimilarUsersAssigned(similarUsersState)]
    {
      var result := SearchUsers(api, query);
      match result
      case Success(users) =>
        PublishSimilarUsersState(UiState.Success(SimilarUsers(users, query)));
      case Error(e) =>
        PublishSimilarUsersState(UiState.Error(UserFriendlyMessage(e)));
      case Loading =>
        // the source publishes `Loading` here, but the repository never returns it
        assert false;
    }

    /**
     * The `when (getUserUseCase(username))` block shared by `searchUser` and
     * `refreshData`: publishes the user or the error, and on success searches
     * for similar users with the same query.
     */
    method LookUpUser(username: string)
      requires LogMatchesState()
      modifies this`userState, this`similarUsersState, this`log
      ensures LogMatchesState()
      ensures log == old(log) + LookUpEvents(api, username)
      ensures var found := GetUser(api, username);
        && userState == Published(found)
        && similarUsersState == if found.Success? then SimilarUsersStateOf(SearchUsers(api, username), username)
                                else old(similarUsersState)
    {
      var result := GetUser(api, username);
      match result {
        case Success(user) =>
          PublishUserState(UiState.Success(user));
          SearchSimilarUsers(username);
        case Error(e) =>
          PublishUserState(UiState.Error(UserFriendlyMessage(e)));
        case Loading =>
          assert false;
      }
    }

    /** `searchUser()`: nothing happens for blank search text. */
    method SearchUser()
      requires Valid()
      modifies this`userState, this`similarUsersState, this`log
      ensures Valid()
      ensures var username := Trim(old(searchState.searchText));
        if IsBlank(username) then
          log == old(log) && userState == old(userState) && similarUsersState == old(similarUsersState)
        else
          var found := GetUser(api, username);
          && log == old(log) + [UserAssigned(UiState.Loading)] + LookUpEvents(api, username)
          && userState == Published(found)
          && similarUsersState == if found.Success? then SimilarUsersStateOf(SearchUsers(api, username), username)
                                  else old(similarUsersState)
    {
      var username := Trim(searchState.searchText);
      if IsBlank(username) {
        return;
      }
      PublishUserState(UiState.Loading);
      LookUpUser(username);
    }

    /** The first `launch` block of `refreshData`: reloads `username` while refreshing. */
    method RefreshUser(username: string)
      requires Valid()
      modifies this`userState, this`similarUsersState, this`isRefreshing, this`log
      ensures Valid()
      ensures log == old(log) + [RefreshingAssigned(true)] + LookUpEvents(api, username) + [RefreshingAssigned(false)]
      ensures var found := GetUser(api, username);
        && userState == Published(found)
        && similarUsersState == if found.Success? then SimilarUsersStateOf(SearchUsers(api, username), username)
                                else old(similarUsersState)
    {
      PublishRefreshing(true);
      LookUpUser(username);
      PublishRefreshing(false);
    }

    /** The second `launch` block of `refreshData`: searches similar users for `query` while refreshing. */
    method RefreshSimilarUsers(query: string)
      requires Valid()
      modifies this`similarUsersState, this`isRefreshing, this`log
      ensures Valid() && userState == old(userState)
      ensures similarUsersState == SimilarUsersStateOf(SearchUsers(api, query), query)
      ensures log == old(log) + [RefreshingAssigned(true), SimilarUsersAssigned(similarUsersState), RefreshingAssigned(false)]
    {
      PublishRefreshing(true);
      SearchSimilarUsers(query);
      PublishRefreshing(false);
    }

    /** `refreshData()`: reloads the shown user, or only the similar users when there is none to reload. */
    method RefreshData()
      requires Valid()
      modifies this`userState, this`similarUsersState, this`isRefreshing, this`log
      ensures Valid()
      ensures var target := RefreshTarget(old(userState), old(searchState.searchText));
        var text := Trim(old(searchState.searchText));
        if !IsBlank(target) then
          var found := GetUser(api, target);
          && log == old(log) + [RefreshingAssigned(true)] + LookUpEvents(api, target) + [RefreshingAssigned(false)]
          && userState == Published(found)
          && similarUsersState == if found.Success? then SimilarUsersStateOf(SearchUsers(api, target), target)
                                  else old(similarUsersState)
        else if !IsBlank(text) then
          && similarUsersState == SimilarUsersStateOf(SearchUsers(api, text), text)
          && log == old(log) + [RefreshingAssigned(true), SimilarUsersAssigned(similarUsersState), RefreshingAssigned(false)]
          && userState == old(userState)
        else
          log == old(log) && userState == old(userState) && similarUsersState == old(similarUsersState)
    {
      var currentUsername := RefreshTarget(userState, searchState.searchText);
      if !IsBlank(currentUsername) {
        RefreshUser(currentUsername);
      } else {
        var searchText := Trim(searchState.searchText);
        if !IsBlank(searchText) {
          RefreshSimilarUsers(searchText);
        }
      }
    }

    /** `resetUserState()`. */
    method ResetUserState()
      requires Valid()
      modifies this`userState, this`similarUsersState, this`log
      ensures Valid() && userState == Idle && similarUsersState == Idle
      ensures log == old(log) + [UserAssigned(Idle), SimilarUsersAssigned(Idle)]
    {
      PublishUserState(Idle);
      PublishSimilarUsersState(Idle);
    }
  }
}

=== FILE: seqs.dfy ===
/** Kotlin's `List.filter` and `List.take`, and what it means for one list to be an order-preserving selection of another. */
module Seqs {

  function Min(a: int, b: int): int {
    if a < b then a else b
  }

  /** `a` is obtained from `b` by deleting elements, keeping the order of the rest. */
  ghost predicate IsSubsequence<T>(a: seq<T>, b: seq<T>)
    decreases |b|
  {
    a == [] || (b != [] && ((a[0] == b[0] && IsSubsequence(a[1..], b[1..])) || IsSubsequence(a, b[1..])))
  }

  /** `List.filter(f)`: the elements satisfying `f`, in their original order. */
  function Filter<T>(f: T -> bool, s: seq<T>): (r: seq<T>)
    ensures forall x :: x in r ==> x in s && f(x)
    ensures forall x :: x in s && f(x) ==> x in r
    decreases |s|
  {
    if s == [] then [] else (if f(s[0]) then [s[0]] else []) + Filter(f, s[1..])
  }

  /** `List.take(n)`: the first `n` elements, or all of them when there are fewer. */
  function Take<T>(s: seq<T>, n: nat): (r: seq<T>)
    ensures |r| == Min(n, |s|) && r == s[..|r|]
  {
    if n < |s| then s[..n] else s
  }

  /** Filtering keeps every copy of a kept value and no copy of a dropped one. */
  lemma {:induction false} FilterCount<T>(f: T -> bool, s: seq<T>)
    ensures forall x :: x in s ==> multiset(Filter(f, s))[x] == if f(x) then multiset(s)[x] else 0
    decreases |s|
  {
    if s != [] {
      FilterCount(f, s[1..]);
      assert s == [s[0]] + s[1..];
      var head := if f(s[0]) then [s[0]] else [];
      assert multiset(Filter(f, s)) == multiset(head) + multiset(Filter(f, s[1..]));
      forall x | x in s ensures multiset(Filter(f, s))[x] == if f(x) then multiset(s)[x] else 0 {
        if x !in s[1..] {
          assert multiset(s[1..])[x] == 0;
          assert multiset(Filter(f, s[1..]))[x] == 0;
        }
      }
    }
  }

  lemma {:induction false} FilterIsSubsequence<T>(f: T -> bool, s: seq<T>)
    ensures IsSubsequence(Filter(f, s), s)
    decreases |s|
  {
    if s != [] {
      FilterIsSubsequence(f, s[1..]);
      if f(s[0]) {
        assert Filter(f, s) == [s[0]] + Filter(f, s[1..]);
        assert Filter(f, s)[1..] == Filter(f, s[1..]);
      } else {
        assert Filter(f, s) == Filter(f, s[1..]);
      }
    }
  }

  lemma {:induction false} FilterConcat<T>(f: T -> bool, a: seq<T>, b: seq<T>)
    ensures Filter(f, a + b) == Filter(f, a) + Filter(f, b)
    decreases |a|
  {
    if a != [] {
      var t := a + b;
      assert t != [] && t[0] == a[0] && t[1..] == a[1..] + b;
      FilterConcat(f, a[1..], b);
      var head := if f(a[0]) then [a[0]] else [];
      assert Filter(f, t) == head + Filter(f, t[1..]);
      assert Filter(f, a) == head + Filter(f, a[1..]);
    } else {
      assert a + b == b;
    }
  }

  /** Filtering a prefix gives a prefix of the filtered list. */
  lemma FilterOfPrefix<T>(f: T -> bool, s: seq<T>, n: nat)
    requires n <= |s|
    ensures |Filter(f, s[..n])| <= |Filter(f, s)|
    ensures Filter(f, s[..n]) == Filter(f, s)[..|Filter(f, s[..n])|]
  {
    assert s == s[..n] + s[n..];
    FilterConcat(f, s[..n], s[n..]);
  }

  /** Every prefix of a filtered list is what the filter keeps of some prefix of the input. */
  lemma {:induction false} FilterPrefixAt<T>(f: T -> bool, s: seq<T>, n: nat)
    requires n <= |Filter(f, s)|
    ensures exists k :: 0 <= k <= |s| && Filter(f, s[..k]) == Filter(f, s)[..n]
    decreases |s|
  {
    if n == 0 {
      assert Filter(f, s[..0]) == Filter(f, s)[..0];
    } else {
      var tail := s[1..];
      var head := if f(s[0]) then [s[0]] else [];
      assert Filter(f, s) == head + Filter(f, tail);
      var m := n - |head|;
      FilterPrefixAt(f, tail, m);
      var k :| 0 <= k <= |tail| && Filter(f, tail[..k]) == Filter(f, tail)[..m];
      var p := s[..k + 1];
      assert p[0] == s[0] && p[1..] == tail[..k];
      assert Filter(f, p) == head + Filter(f, tail[..k]);
      assert Filter(f, p) == Filter(f, s)[..n];
    }
  }

  lemma {:induction false} PrefixOfSubsequence<T>(a: seq<T>, b: seq<T>, n: nat)
    requires IsSubsequence(a, b) && n <= |a|
    ensures IsSubsequence(a[..n], b)
    decreases |b|
  {
    if n > 0 {
      if a[0] == b[0] && IsSubsequence(a[1..], b[1..]) {
        PrefixOfSubsequence(a[1..], b[1..], n - 1);
        assert a[..n][1..] == a[1..][..n - 1];
      } else {
        PrefixOfSubsequence(a, b[1..], n);
      }
    }
  }

  lemma {:induction false} SubsequenceLength<T>(a: seq<T>, b: seq<T>)
    requires IsSubsequence(a, b)
    ensures |a| <= |b|
    decreases |b|
  {
    if a != [] {
      if a[0] == b[0] && IsSubsequence(a[1..], b[1..]) {
        SubsequenceLength(a[1..], b[1..]);
      } else {
        SubsequenceLength(a, b[1..]);
      }
    }
  }

  /** The first `n` elements kept by a filter form an order-preserving selection of the input. */
  lemma FilterThenTake<T>(f: T -> bool, s: seq<T>, n: nat)
    ensures IsSubsequence(Take(Filter(f, s), n), s)
    ensures |Take(Filter(f, s), n)| <= |s|
  {
    FilterIsSubsequence(f, s);
    PrefixOfSubsequence(Filter(f, s), s, |Take(Filter(f, s), n)|);
    SubsequenceLength(Take(Filter(f, s), n), s);
  }
}

=== FILE: states.dfy ===
/**
 * The screen states of `presentation.state`: `UserState`, `SimilarUsersState`,
 * `PopularReposState`, `RepositoriesState` and `RepositoryDetailState` all
 * have the same four variants and differ only in their payload.
 */
module States {
  import opened Model
  import opened ExceptionExtensions

  datatype UiState<+T> = Idle | Loading | Success(value: T) | Error(message: string)

  type UserState = UiState<User>
  type SimilarUsersState = UiState<seq<User>>
  type PopularReposState = UiState<seq<Repository>>
  type RepositoriesState = UiState<seq<Repository>>
  type RepositoryDetailState = UiState<Repository>

  /**
   * The state a view model publishes for a finished call: the payload on
   * success, the friendly message on failure.  Every caller treats
   * `Result.Loading` as unreachable (`TODO()`).
   */
  function Published<T>(r: Result<T>): (s: UiState<T>)
    requires !r.Loading?
    ensures s.Success? || s.Error?
    ensures s.Success? <==> r.Success?
    ensures s.Success? ==> s.value == r.data
    ensures s.Error? ==> s.message == UserFriendlyMessage(r.exception) && s.message in FriendlyMessages
  {
    match r
    case Success(data) => UiState.Success(data)
    case Error(e) => UiState.Error(UserFriendlyMessage(e))
  }
}

=== FILE: text.dfy ===
/**
 * The few Kotlin string operations the app relies on: `isBlank`, `trim`,
 * `lowercase`, `contains(…, ignoreCase = true)` and the decimal rendering of
 * `Int.toString`.  Case mapping covers the ASCII letters only.
 */
module Text {

  /** The characters for which Kotlin's `Char.isWhitespace()` holds on the JVM
      (`Character.isWhitespace` or `Character.isSpaceChar`). */
  const WhitespaceChars: set<char> :=
    {' ', '\t', '\n', '\r', '\U{000B}', '\U{000C}', '\U{001C}', '\U{001D}', '\U{001E}', '\U{001F}',
     '\U{00A0}', '\U{1680}', '\U{2000}', '\U{2001}', '\U{2002}', '\U{2003}', '\U{2004}', '\U{2005}',
     '\U{2006}', '\U{2007}', '\U{2008}', '\U{2009}', '\U{200A}', '\U{2028}', '\U{2029}', '\U{202F}',
     '\U{205F}', '\U{3000}'}

  predicate IsWhitespace(c: char) {
    c in WhitespaceChars
  }

  /** `CharSequence.isBlank()`: empty or whitespace only. */
  function IsBlank(s: string): (b: bool)
    ensures s == [] ==> b
    ensures b <==> forall c :: c in s ==> IsWhitespace(c)
    ensures b <==> SkipWhitespace(s, 0) == |s|
  {
    forall i :: 0 <= i < |s| ==> IsWhitespace(s[i])
  }

  /** The first position at or after `i` that does not hold whitespace (or `|s|`). */
  function SkipWhitespace(s: string, i: nat): (n: nat)
    requires i <= |s|
    ensures i <= n <= |s|
    ensures forall k :: i <= k < n ==> IsWhitespace(s[k])
    ensures n == |s| || !IsWhitespace(s[n])
    decreases |s| - i
  {
    if i < |s| && IsWhitespace(s[i]) then SkipWhitespace(s, i + 1) else i
  }

  /** The end of `s[..j]` once the whitespace before `j` (and not before `lo`) is dropped. */
  function SkipWhitespaceBack(s: string, lo: nat, j: nat): (n: nat)
    requires lo <= j <= |s|
    ensures lo <= n <= j
    ensures forall k :: n <= k < j ==> IsWhitespace(s[k])
    ensures n == lo || !IsWhitespace(s[n - 1])
  {
    if lo < j && IsWhitespace(s[j - 1]) then SkipWhitespaceBack(s, lo, j - 1) else j
  }

  /** `r` is `s[i..]` cut short of a whitespace suffix, with only whitespace before `i`. */
  ghost predicate TrimmedAt(s: string, r: string, i: int) {
    && 0 <= i <= |s| - |r|
    && s[i..i + |r|] == r
    && (forall k :: 0 <= k < i ==> IsWhitespace(s[k]))
    && (forall k :: i + |r| <= k < |s| ==> IsWhitespace(s[k]))
  }

  /** `String.trim()`: the infix of `s` left after removing whitespace at both ends. */
  function Trim(s: string): (r: string)
    ensures exists i :: TrimmedAt(s, r, i)
    ensures r == [] || (!IsWhitespace(r[0]) && !IsWhitespace(r[|r| - 1]))
    ensures r == [] <==> IsBlank(s)
  {
    var i := SkipWhitespace(s, 0);
    var j := SkipWhitespaceBack(s, i, |s|);
    assert TrimmedAt(s, s[i..j], i);
    s[i..j]
  }

  /** Kotlin's `Char.lowercaseChar()` restricted to ASCII. */
  function LowerChar(c: char): char {
    if 'A' <= c <= 'Z' then (c as int + 32) as char else c
  }

  /** `String.lowercase()`, character by character. */
  function Lower(s: string): (r: string)
    ensures |r| == |s|
    ensures forall i :: 0 <= i < |s| ==> r[i] == LowerChar(s[i])
  {
    seq(|s|, i requires 0 <= i < |s| => LowerChar(s[i]))
  }

  /** `a.lowercase() == b.lowercase()`: equality once both sides are lower-cased. */
  predicate EqualsIgnoreCase(a: string, b: string) {
    Lower(a) == Lower(b)
  }

  /** `pattern` occurs in `text` starting at position `i`. */
  ghost predicate OccursAt(text: string, pattern: string, i: int) {
    0 <= i <= |text| - |pattern| && text[i..i + |pattern|] == pattern
  }

  /** Left-to-right search for an occurrence of `pattern` in `text`. */
  function Occurs(text: string, pattern: string): (r: bool)
    ensures r <==> exists i :: OccursAt(text, pattern, i)
    decreases |text|
  {
    if |pattern| > |text| then
      assert forall i :: !OccursAt(text, pattern, i);
      false
    else if text[..|pattern|] == pattern then
      assert OccursAt(text, pattern, 0);
      true
    else
      var r := Occurs(text[1..], pattern);
      assert forall i :: OccursAt(text, pattern, i) && i > 0 ==> OccursAt(text[1..], pattern, i - 1);
      assert forall i :: OccursAt(text[1..], pattern, i) ==> OccursAt(text, pattern, i + 1);
      r
  }

  /** `text.contains(pattern, ignoreCase = true)`. */
  function ContainsIgnoreCase(text: string, pattern: string): (r: bool)
    ensures r <==> exists i :: OccursAt(Lower(text), Lower(pattern), i)
  {
    Occurs(Lower(text), Lower(pattern))
  }

  predicate IsDigit(c: char) {
    '0' <= c <= '9'
  }

  function DigitChar(d: int): (c: char)
    requires 0 <= d < 10
    ensures IsDigit(c) && c as int - '0' as int == d
  {
    ('0' as int + d) as char
  }

  /** The decimal digits of `n`, most significant first, without leading zeros. */
  function NatToString(n: nat): (r: string)
    ensures |r| >= 1 && (r[0] == '0' ==> n == 0)
    ensures forall i :: 0 <= i < |r| ==> IsDigit(r[i])
  {
    if n < 10 then [DigitChar(n)] else NatToString(n / 10) + [DigitChar(n % 10)]
  }

  /** `Int.toString()` / `Long.toString()`: an optional minus sign, then the digits. */
  function IntToString(n: int): (r: string)
    ensures |r| >= 1 && IsDigit(r[|r| - 1])
    ensures r[0] == '-' <==> n < 0
  {
    if n < 0 then "-" + NatToString(-n) else NatToString(n)
  }

  /** The number a string of digits denotes. */
  function DigitsValue(s: string): int
    requires forall i :: 0 <= i < |s| ==> IsDigit(s[i])
  {
    if s == [] then 0 else DigitsValue(s[..|s| - 1]) * 10 + (s[|s| - 1] as int - '0' as int)
  }

  /** Reads back a string of the shape `IntToString` produces. */
  function ParseInt(s: string): int
    requires |s| >= 1
    requires forall i :: (if s[0] == '-' then 1 else 0) <= i < |s| ==> IsDigit(s[i])
  {
    if s[0] == '-' then -DigitsValue(s[1..]) else DigitsValue(s)
  }

  lemma {:induction false} NatToStringValue(n: nat)
    ensures DigitsValue(NatToString(n)) == n
  {
    if n >= 10 {
      NatToStringValue(n / 10);
      var s := NatToString(n);
      assert s[..|s| - 1] == NatToString(n / 10);
    }
  }

  /** The decimal rendering reads back as the number it renders. */
  lemma IntToStringRoundTrip(n: int)
    ensures ParseInt(IntToString(n)) == n
  {
    if n < 0 {
      NatToStringValue(-n);
      assert IntToString(n)[1..] == NatToString(-n);
    } else {
      NatToStringValue(n);
    }
  }
}

=== FILE: theme.dfy ===
/**
 * `ThemeManager`: the dark-mode flag and its persisted copy under the
 * boolean preference key "dark_mode".  The preference store is a field of
 * the manager; the collector started in `init` is modelled as `Reload`,
 * one call per value the store emits, and `collecting` says whether that
 * collector is still running.
 */
module Theme {
  import opened Model

  const DarkModeKey: string := "dark_mode"

  /** The boolean entries of the preference store. */
  type Preferences = map<string, bool>

  /**
   * `dataStore.data.catch { … }.map { it[DARK_MODE_KEY] ?: false }` for one
   * emission: an I/O failure reads as empty preferences, any other failure
   * escapes the flow.
   */
  function StoredDarkMode(read: Outcome<Preferences>): (r: Outcome<bool>)
    ensures r.Returned? <==> read.Returned? || read.exception.IsIO()
    ensures r.Threw? ==> r.exception == read.exception
    ensures read.Returned? && DarkModeKey in read.value ==> r == Returned(read.value[DarkModeKey])
    ensures r == Returned(true) ==> read.Returned? && DarkModeKey in read.value && read.value[DarkModeKey]
  {
    match read
    case Returned(preferences) =>
      Returned(if DarkModeKey in preferences then preferences[DarkModeKey] else false)
    case Threw(e) =>
      if e.IsIO() then Returned(false) else Threw(e)
  }

  class ThemeManager {
    var isDarkMode: bool
    var store: Preferences
    var collecting: bool

    /** The value the store's next emission would give the flag. */
    ghost function StoredFlag(): Outcome<bool>
      reads this
    {
      StoredDarkMode(Returned(store))
    }

    /** The flag starts false, whatever the store holds from an earlier run; `init` starts the collector. */
    constructor (stored: Preferences)
      ensures !isDarkMode && store == stored && collecting
    {
      isDarkMode := false;
      store := stored;
      collecting := true;
    }

    /**
     * One emission of the store reaching the collector: the store's contents,
     * or `readError` when reading fails.  A failed read ends the collection:
     * after an I/O failure `catch` emits empty preferences and the flow
     * completes; any other failure escapes and is returned.  Once the
     * collection has ended, nothing changes any more.
     */
    method Reload(readError: Option<Exception>) returns (escaped: Option<Exception>)
      modifies this`isDarkMode, this`collecting
      ensures !old(collecting) ==> isDarkMode == old(isDarkMode) && !collecting && escaped.None?
      ensures old(collecting) ==>
        var loaded := StoredDarkMode(if readError.None? then Returned(store) else Threw(readError.value));
        && collecting == readError.None?
        && (loaded.Returned? ==> isDarkMode == loaded.value && escaped.None?)
        && (loaded.Threw? ==> isDarkMode == old(isDarkMode) && escaped == Some(loaded.exception))
      ensures old(collecting) && readError.Some? && readError.value.IsIO() ==> !isDarkMode
      ensures old(collecting) && readError.None? && DarkModeKey !in store ==> !isDarkMode
    {
      escaped := None;
      if !collecting {
        return;
      }
      var read := if readError.None? then Returned(store) else Threw(readError.value);
      match StoredDarkMode(read) {
        case Returned(darkMode) =>
          isDarkMode := darkMode;
        case Threw(e) =>
          escaped := Some(e);
      }
      collecting := readError.None?;
    }

    /** `toggleDarkMode()`: flips the flag and persists the new value. */
    method ToggleDarkMode()
      modifies this`isDarkMode, this`store
      ensures isDarkMode == !old(isDarkMode)
      ensures store == old(store)[DarkModeKey := isDarkMode]
      ensures StoredFlag() == Returned(isDarkMode)
    {
      var newMode := !isDarkMode;
      isDarkMode := newMode;
      store := store[DarkModeKey := newMode];
    }

    /** `setDarkMode(darkMode)`: sets the flag and persists it. */
    method SetDarkMode(darkMode: bool)
      modifies this`isDarkMode, this`store
      ensures isDarkMode == darkMode
      ensures store == old(store)[DarkModeKey := darkMode]
      ensures StoredFlag() == Returned(darkMode)
    {
      isDarkMode := darkMode;
      store := store[DarkModeKey := darkMode];
    }

    /** Toggling twice restores the flag; the store keeps the original value under the key. */
    method ToggleTwiceRestores()
      modifies this`isDarkMode, this`store
      ensures isDarkMode == old(isDarkMode)
      ensures store == old(store)[DarkModeKey := old(isDarkMode)]
    {
      ToggleDarkMode();
      ToggleDarkMode();
    }

    /** Setting the same value twice leaves the state that setting it once does. */
    method SetDarkModeIdempotent(darkMode: bool)
      modifies this`isDarkMode, this`store
      ensures isDarkMode == darkMode
      ensures store == old(store)[DarkModeKey := darkMode]
    {
      SetDarkMode(darkMode);
      SetDarkMode(darkMode);
    }

    /** After a toggle the store's own emission agrees with the flag, so the collector does not undo it. */
    method ToggleThenReload()
      modifies this`isDarkMode, this`store, this`collecting
      ensures isDarkMode == !old(isDarkMode)
    {
      ToggleDarkMode();
      var escaped := Reload(None);
    }
  }
}

=== FILE: util.dfy ===
/**
 * The display helpers of `ui.utility`: number abbreviation, the language
 * colour table, date rendering with its fallback and the relative-time
 * buckets.  Parsing timestamps and rendering floating-point numbers are
 * outside the model and arrive as inputs.
 */
module Util {
  import opened Model
  import opened Text

  /** Kotlin's `Int`. */
  type Int32 = n: int | -0x8000_0000 <= n < 0x8000_0000

  /**
   * `formatNumber(number)`.  `oneDecimal(n, d)` stands for
   * `"%.1f".format(n / d.toDouble())`, which is not modelled.
   */
  function FormatNumber(number: Int32, oneDecimal: (int, int) -> string): (r: string)
    ensures number < 1000 ==> r == IntToString(number) && ParseInt(r) == number
    ensures number >= 1000000 ==> r == oneDecimal(number, 1000000) + "M"
    ensures 1000 <= number < 1000000 ==> r == oneDecimal(number, 1000) + "K"
    ensures |r| >= 1 && (r[|r| - 1] == 'M' <==> number >= 1000000)
    ensures |r| >= 1 && (r[|r| - 1] == 'K' <==> 1000 <= number < 1000000)
  {
    if number >= 1000000 then oneDecimal(number, 1000000) + "M"
    else if number >= 1000 then oneDecimal(number, 1000) + "K"
    else
      IntToStringRoundTrip(number);
      IntToString(number)
  }

  const DefaultLanguageColor: int := 0xFF586069

  /** The colour table as data: lowercase language name to ARGB value. */
  const LanguageColors: map<string, int> := map[
    "kotlin" := 0xFF7F52FF,
    "java" := 0xFFED8B00,
    "javascript" := 0xFFF7DF1E,
    "python" := 0xFF3776AB,
    "swift" := 0xFFFA7343,
    "dart" := 0xFF0175C2,
    "go" := 0xFF00ADD8,
    "rust" := 0xFF000000,
    "c++" := 0xFF00599C,
    "c" := 0xFFA8B9CC]

  /** `getLanguageColor(language)`: the `when` over the lowercased name. */
  function LanguageColor(language: string): (color: int)
    ensures Lower(language) in LanguageColors ==> color == LanguageColors[Lower(language)]
    ensures Lower(language) !in LanguageColors ==> color == DefaultLanguageColor
    ensures color == DefaultLanguageColor <==> Lower(language) !in LanguageColors
  {
    var name := Lower(language);
    if name == "kotlin" then 0xFF7F52FF
    else if name == "java" then 0xFFED8B00
    else if name == "javascript" then 0xFFF7DF1E
    else if name == "python" then 0xFF3776AB
    else if name == "swift" then 0xFFFA7343
    else if name == "dart" then 0xFF0175C2
    else if name == "go" then 0xFF00ADD8
    else if name == "rust" then 0xFF000000
    else if name == "c++" then 0xFF00599C
    else if name == "c" then 0xFFA8B9CC
    else DefaultLanguageColor
  }

  lemma LowerIdempotent(s: string)
    ensures Lower(Lower(s)) == Lower(s)
  {
  }

  /** The colour depends only on the lowercased name. */
  lemma LanguageColorIgnoresCase(a: string, b: string)
    ensures Lower(a) == Lower(b) ==> LanguageColor(a) == LanguageColor(b)
    ensures LanguageColor(a) == LanguageColor(Lower(a))
  {
    LowerIdempotent(a);
  }

  const StringIndexOutOfBounds: Exception := OtherException("StringIndexOutOfBoundsException")

  /**
   * `formatDate(dateString)`.  `formatted` is what parsing and rendering as
   * "MMM yyyy" gives, or `None` when parsing throws; the fallback
   * `substring(0, 7)` itself throws on a shorter input.
   */
  function FormatDate(dateString: string, formatted: Option<string>): (r: Outcome<string>)
    ensures formatted.Some? ==> r == Returned(formatted.value)
    ensures r.Threw? <==> formatted.None? && |dateString| < 7
    ensures r.Threw? ==> r.exception == StringIndexOutOfBounds
    ensures formatted.None? && r.Returned? ==> |r.value| == 7 && r.value <= dateString
  {
    match formatted
    case Some(text) => Returned(text)
    case None =>
      if |dateString| < 7 then Threw(StringIndexOutOfBounds) else Returned(dateString[..7])
  }

  /** Java's `long` division, which truncates toward zero. */
  function JavaDiv(a: int, b: int): (q: int)
    requires b > 0
    ensures a >= 0 ==> q == a / b
    ensures q > 0 <==> a >= b
    ensures (a >= 0 ==> q >= 0) && (a <= 0 ==> q <= 0)
    ensures var n, m := if a >= 0 then a else -a, if q >= 0 then q else -q;
      m * b <= n < (m + 1) * b
  {
    if a >= 0 then a / b else -((-a) / b)
  }

  const SecondsPerMinute: int := 60
  const SecondsPerHour: int := 3600
  const SecondsPerDay: int := 86400

  /**
   * `formatRelativeTime(dateString)`.  `elapsed` is the whole seconds of
   * `Duration.between(instant, now)` (`getSeconds()`), or `None` when the
   * timestamp does not parse.
   */
  function FormatRelativeTime(elapsed: Option<int>): (r: string)
    ensures r == "Recently" <==> elapsed.None?
  {
    match elapsed
    case None => "Recently"
    case Some(seconds) =>
      var days := JavaDiv(seconds, SecondsPerDay);
      var hours := JavaDiv(seconds, SecondsPerHour);
      var minutes := JavaDiv(seconds, SecondsPerMinute);
      if days > 30 then IntToString(days / 30) + " months ago"
      else if days > 0 then IntToString(days) + " days ago"
      else if hours > 0 then IntToString(hours) + " hours ago"
      else if minutes > 0 then IntToString(minutes) + " minutes ago"
      else "Just now"
  }

  /** The bucket `formatRelativeTime` picks, stated on the elapsed seconds. */
  lemma RelativeTimeBuckets(seconds: int)
    ensures var r := FormatRelativeTime(Some(seconds));
      && (seconds >= 31 * SecondsPerDay ==> r == IntToString(seconds / SecondsPerDay / 30) + " months ago")
      && (SecondsPerDay <= seconds < 31 * SecondsPerDay ==> r == IntToString(seconds / SecondsPerDay) + " days ago")
      && (SecondsPerHour <= seconds < SecondsPerDay ==> r == IntToString(seconds / SecondsPerHour) + " hours ago")
      && (SecondsPerMinute <= seconds < SecondsPerHour ==> r == IntToString(seconds / SecondsPerMinute) + " minutes ago")
      && (seconds < SecondsPerMinute ==> r == "Just now")
  {
    var days := JavaDiv(seconds, SecondsPerDay);
    if seconds >= 31 * SecondsPerDay {
      assert days >= 31;
    } else if seconds >= 0 {
      assert days <= 30;
    } else {
      assert days <= 0;
    }
  }
}
